=== FILE: README.md ===
# send-prompts: a Dafny model of the streaming load-test harness

`scripts/send-prompts.py` fires a number of streaming requests at an
OpenAI-compatible LLM server and reports how they went. It has three parts,
and this project models each of them:

- **`parse_sse_stream`** reads the response body line by line. It keeps the
  `data:` field of each server-sent event (section 9.2 of the WHATWG HTML
  Living Standard, in the literal `"data: "` prefix form the script uses).
  It stops at `[DONE]`, skips payloads that are not JSON, and appends each
  frame's content. The content is `delta.content`, falling back to
  `message.content`, on the chat endpoint, and `text` on any other endpoint.
- **`send_request`** chooses the prompt, shapes the headers and the JSON
  body, posts them, and turns whatever happens into a result record. The
  record says whether the request succeeded, its latency, an estimated
  token count, and the text length or an error string.
- **`main`** rejects a concurrency below one, picks the endpoint, sends one
  request per index, and summarises the results.

Modules:

- `PyJson` (pyjson.dfy) covers JSON values as `json.loads` returns them,
  plus the Python operations the decoder applies to them. These are
  `dict.get`, indexing with `[0]` and truth values, each with the exception
  it raises on the wrong kind of value.
- `Text` (text.dfy) covers `str.strip`, the decimal rendering of a status
  code, and `str.replace("\n", " ")`.
- `Sse` (sse.dfy) models `parse_sse_stream`:
  - `Step` specifies one line and `Feed`/`Decode` the whole pass, as a left
    fold that stops early.
  - `ParseSseStream` is the loop itself, with the script's accumulators as
    locals. It is proved equal to `Decode`. Its body is `ReadLine`, which
    hands a parsed frame to `AbsorbFrame`.
  - `content` is carried from one line to the next, as the script does.
    A frame without `choices` therefore appends the previous content again,
    or raises `UnboundLocalError` when nothing has bound it yet.
- `Runner` (runner.dfy) models `send_request`: `BuildRequest`, the
  specification `Outcome` and the method `SendRequest`.
- `LoadTest` (loadtest.dfy) models `main`: `RunLoadTest` and the summary
  folds.

The network enters as a value. An `Exchange` is one of two things:
`requests.post` raised, or there is a status code plus the lines the body
yielded, optionally followed by an exception the transport raised after
them. `json.loads` is a function parameter, `parse: string -> Option<Json>`,
where `None` is a `JSONDecodeError`. The elapsed time of each request is a
`nat` given by the caller.

## Model

| member | source | states |
|---|---|---|
| `PyJson.Get` | scripts/send-prompts.py:48-57 | `.get` yields a value exactly on a dict: the key's value when present (even `null`), the default when missing; anything else raises `AttributeError` |
| `PyJson.First` | scripts/send-prompts.py:50 | `[0]` yields a value exactly on a non-empty list or string: the first item of a list, the first character of a string; a dict gives a caught `KeyError`; numbers, booleans and `null` raise `TypeError` |
| `PyJson.FalsyValues` | scripts/send-prompts.py:49-67 | the truth test of `if choices:`, `if not content:` and `if content:` fails exactly on `None`, `False`, `0`, `""`, `[]` and `{}` |
| `PyJson.ErrorName` | scripts/send-prompts.py:155-156 | the class name of an escaped exception is never empty |
| `PyJson.ErrorNamesDistinct` | scripts/send-prompts.py:155-156 | different exceptions are reported under different names |
| `Text.IsSpaceCommon` | scripts/send-prompts.py:32 | the whitespace `strip` removes includes space, tab, newline and carriage return, excludes digits, letters and brackets, and lies at or below U+3000 |
| `Text.LStrip` | scripts/send-prompts.py:32 | the result is a suffix, everything dropped is whitespace, and it does not start with whitespace |
| `Text.RStrip` | scripts/send-prompts.py:32 | the result is a prefix, everything dropped is whitespace, and it does not end with whitespace |
| `Text.Strip` | scripts/send-prompts.py:32 | the stripped payload is a slice of the input from which only leading and trailing whitespace was dropped, and has no whitespace at either end |
| `Text.StripBounds` | scripts/send-prompts.py:32 | stripping keeps `s[i..j]` for bounds with only whitespace before `i` and from `j` on |
| `Text.StripTrimmed` | scripts/send-prompts.py:32 | stripping leaves alone a string with no whitespace at its ends |
| `Text.StripIdempotent` | scripts/send-prompts.py:32 | stripping twice is stripping once |
| `Text.DigitChar` | scripts/send-prompts.py:130 | one decimal digit character for each value below ten |
| `Text.DecimalDigits` | scripts/send-prompts.py:130 | the rendering of a status code is non-empty, all digits, without a leading zero, and one digit exactly below ten |
| `Text.DecimalRoundTrip` | scripts/send-prompts.py:130 | reading the digits back gives the code |
| `Text.DecimalDigitsInjective` | scripts/send-prompts.py:130 | distinct codes render differently |
| `Text.ReplaceNewlines` | scripts/send-prompts.py:140 | same length; each newline becomes a space and every other character stays |
| `Sse.DataLinePrefixed` | scripts/send-prompts.py:31 | a line is a data line exactly when it is `data: ` followed by the rest of the line |
| `Sse.StripSuffix` | scripts/send-prompts.py:32 | stripping the text from index `n` on keeps a slice of the whole line with only whitespace between `n` and it and after it |
| `Sse.PayloadTrimmed` | scripts/send-prompts.py:32 | the payload is the text after `data: ` without surrounding whitespace: a slice of the line, no longer than the rest, with non-space ends and only whitespace cut around it |
| `Sse.DoneLineShape` | scripts/send-prompts.py:31-35 | the sentinel line is `data: `, optional whitespace, `[DONE]`, optional whitespace |
| `Sse.SelectedContent` | scripts/send-prompts.py:51-57 | `delta.content` when `delta` is a dict with a non-null `content`; otherwise `message.content` (`""` when `message` or its `content` is missing); a non-dict choice, `delta` or `message` raises `AttributeError` |
| `Sse.ChatChoiceContent` | scripts/send-prompts.py:51-61 | a truthy selected content is the frame's content; a falsy one is counted empty; an exception while selecting escapes |
| `Sse.ChatContent` | scripts/send-prompts.py:46-61 | a non-object payload raises `AttributeError`; missing or falsy `choices` leaves `content` alone; a non-empty list hands its first item to the chat rule; a truthy dict is a caught `KeyError` and skips the line; a truthy number or boolean raises `TypeError`; a non-empty string raises `AttributeError` |
| `Sse.CompletionContent` | scripts/send-prompts.py:62-65 | a non-object payload raises `AttributeError`; missing or falsy `choices` leaves `content` alone; a non-empty list gives its first item's `text` (default `""`), or `AttributeError` when that item is not an object; a truthy dict is a caught `KeyError`; a truthy number or boolean raises `TypeError`; never counts an empty content |
| `Sse.Extract` | scripts/send-prompts.py:46-65 | only the chat endpoint counts empty contents |
| `Sse.Emit` | scripts/send-prompts.py:67-71 | unbound `content` raises `UnboundLocalError`; falsy content changes nothing; a truthy non-string raises `TypeError`; a truthy string is appended and counted once |
| `Sse.Absorb` | scripts/send-prompts.py:46-75 | a frame never ends decoding normally; text only grows; one more chunk exactly when text was appended; the line count is untouched; the empty count moves only on a counted-empty frame, and then no text is added |
| `Sse.Step` | scripts/send-prompts.py:24-75 | one line: text only grows, chunks move with the text, only a non-blank line is counted, empties move only on the chat endpoint, and the loop breaks exactly on a `[DONE]` line |
| `Sse.Feed` | scripts/send-prompts.py:24-75 | a stopped decoder stays as it is; text grows by appending; every chunk adds at least one character; at most one line is counted per input line |
| `Sse.Decode` | scripts/send-prompts.py:17-80 | on a whole response, `len(accumulated_text) >= chunk_count` and `total_lines` does not exceed the number of lines |
| `Sse.AbsorbFrame` | scripts/send-prompts.py:46-75 | the loop body for a parsed frame computes exactly `Absorb` of the endpoint's content rule |
| `Sse.ReadLine` | scripts/send-prompts.py:24-75 | one pass of the loop body over the accumulators gives exactly `Step`: blank lines are skipped, other lines counted, `[DONE]` stops, malformed JSON is skipped, a frame is absorbed |
| `Sse.ParseSseStream` | scripts/send-prompts.py:17-80 | the loop ends in exactly the state, and with exactly the status, that `Decode` specifies |
| `Sse.StepFrame` | scripts/send-prompts.py:40-75 | a line carrying a JSON frame is counted, then absorbed by the endpoint's content rule |
| `Sse.FeedFirst` | scripts/send-prompts.py:24 | a running decoder takes the first line, then the rest |
| `Sse.FeedAppend` | scripts/send-prompts.py:24 | decoding two pieces in turn is decoding their concatenation |
| `Sse.DoneEndsDecoding` | scripts/send-prompts.py:31-38 | after `[DONE]`, the result is the state before it (one more line counted), whatever lines follow |
| `Sse.StoppedIgnoresRest` | scripts/send-prompts.py:35-38 | once decoding has stopped, later lines change nothing |
| `Sse.BlankLineInvisible` | scripts/send-prompts.py:25-26 | removing a blank line anywhere changes nothing, not even the line count |
| `Sse.BlankLineStep` | scripts/send-prompts.py:25-26 | a blank line leaves every accumulator unchanged, not even the line count moves |
| `Sse.DoneLineStep` | scripts/send-prompts.py:28-38 | the `[DONE]` line is counted and then stops the loop with the accumulators as they were |
| `Sse.NonDataLineCountedOnly` | scripts/send-prompts.py:28-31 | a non-blank line without the `data: ` prefix only increments the line count |
| `Sse.MalformedPayloadSkipped` | scripts/send-prompts.py:40-75 | a payload that is not JSON only increments the line count, and decoding goes on |
| `Sse.AfterContent` | scripts/send-prompts.py:67-71 | after a string content, the text is the old text followed by it |
| `Sse.AbsorbString` | scripts/send-prompts.py:58-71 | a string content is appended and counted when non-empty, or counted empty on the chat endpoint |
| `Sse.ChoicesOf` | scripts/send-prompts.py:48-50 | a frame with a non-empty `choices` list yields its first choice |
| `Sse.ChatDeltaRule` | scripts/send-prompts.py:51-53 | chat: a string `delta.content` is the content |
| `Sse.ChatMessageRule` | scripts/send-prompts.py:55-57 | chat: with `delta.content` missing or `null`, `message.content` is the content |
| `Sse.ChatNoContentRule` | scripts/send-prompts.py:58-61 | chat: with neither, the frame is counted empty |
| `Sse.CompletionTextRule` | scripts/send-prompts.py:63-65 | completions: `text` is the content, `""` when missing |
| `Sse.ChatTakesDelta` | scripts/send-prompts.py:51-53 | one chat line whose `delta.content` is a string appends it (or counts it empty) |
| `Sse.ChatFallsBackToMessage` | scripts/send-prompts.py:55-57 | one chat line without a usable `delta.content` takes `message.content` |
| `Sse.ChatWithoutContentCountedEmpty` | scripts/send-prompts.py:58-61 | one chat line with no content anywhere increments the empty count and appends nothing |
| `Sse.CompletionTakesText` | scripts/send-prompts.py:62-71 | one completions line appends its `text` when non-empty and never counts empties |
| `Sse.NonObjectPayloadEscapes` | scripts/send-prompts.py:48 | a JSON payload that is not an object raises `AttributeError` out of the decoder |
| `Sse.NoChoicesExtracted` | scripts/send-prompts.py:48-49 | an object whose `choices` is missing or falsy leaves `content` unassigned, on either endpoint |
| `Sse.StaleContentAppendedAgain` | scripts/send-prompts.py:48-71 | a frame whose `choices` is missing or falsy appends the previous frame's content a second time |
| `Sse.UnboundContentEscapes` | scripts/send-prompts.py:48-72 | at any point where `content` is still unbound, such a frame raises `UnboundLocalError` out of the decoder |
| `Sse.FirstFrameWithoutChoicesEscapes` | scripts/send-prompts.py:48-72 | a response whose first line is such a frame ends in `UnboundLocalError`, whatever follows |
| `Sse.NonEmptyCount` | scripts/send-prompts.py:67-71 | at most one chunk per frame |
| `Sse.ChatDeltaStep` | scripts/send-prompts.py:51-53 | one standard chat delta chunk is appended |
| `Sse.CompletionFrameStep` | scripts/send-prompts.py:63-65 | one standard completion chunk is appended |
| `Sse.ConcatStep` | scripts/send-prompts.py:70 | appending one part and then the rest is appending all |
| `Sse.ChatStreamConcatenates` | scripts/send-prompts.py:46-71 | a stream of chat frames decodes to the in-order concatenation of their contents, one chunk per non-empty content and one empty count per empty one |
| `Sse.CompletionStreamConcatenates` | scripts/send-prompts.py:62-71 | a stream of completion frames decodes to the in-order concatenation of their texts, one chunk per non-empty text |
| `Sse.DataLineOf` | scripts/send-prompts.py:31-32 | `"data: " + p` is a data line with payload `p` when `p` has no surrounding whitespace |
| `Sse.DoneLineRecognised` | scripts/send-prompts.py:31-35 | `data: [DONE]` is the sentinel line |
| `Sse.HelloExample` | scripts/send-prompts.py:17-80 | two chat chunks "Hel" and "lo", then `[DONE]`, decode to "Hello" in two chunks over three lines |
| `Sse.CompletionExample` | scripts/send-prompts.py:17-80 | one completion chunk "Hi", then `[DONE]`, decodes to "Hi" in one chunk |
| `Runner.PromptIndex` | scripts/send-prompts.py:93 | the prompt index is always in bounds, congruent to `idx` modulo five, and `idx` itself for the first five requests |
| `Runner.Given` | scripts/send-prompts.py:96-117 | an API key or model counts as given exactly when it is present and non-empty |
| `Runner.ShapedUnique` | scripts/send-prompts.py:95-118 | the request shape determines headers and body completely |
| `Runner.BuildRequest` | scripts/send-prompts.py:93-120 | URL `base_url + endpoint`; `Content-Type` always; `Authorization: Bearer <key>` only for a non-empty key; body with `stream: true`, `max_tokens`, `temperature`, system and user messages on the chat path or `prompt` elsewhere, and `model` only when non-empty |
| `Runner.ErrorText` | scripts/send-prompts.py:127-156 | `HTTP ` followed by the decimal digits of the status code (reading them back gives the code); `timeout`; `HTTP error: ` followed by the detail; the exception name, `: ` and its detail |
| `Runner.StatusErrorsDistinct` | scripts/send-prompts.py:130 | different status codes give different error strings |
| `Runner.EstimateTokens` | scripts/send-prompts.py:137 | the estimate is the text length divided by four, rounded down, and never exceeds the length |
| `Runner.DisplayText` | scripts/send-prompts.py:140 | `(empty response)` for empty text; otherwise the first 256 characters with newlines as spaces; never a newline |
| `Runner.Outcome` | scripts/send-prompts.py:123-156 | failures carry zero tokens; success exactly on status 200 with a stream that ends normally; then the text length and token estimate of the decoded text; a non-200 status gives its `HTTP <code>` failure; an exception from `post` is reported as itself |
| `Runner.SendRequest` | scripts/send-prompts.py:82-156 | the request is of the promised shape and the result is `Outcome` of the exchange |
| `Runner.DoneShieldsLaterFailure` | scripts/send-prompts.py:133-143 | once `[DONE]` was read, a transport error after it does not change the result |
| `Runner.MissingDoneStillSucceeds` | scripts/send-prompts.py:133-156 | a body ending without `[DONE]` succeeds when the transport ends cleanly, and fails with the transport's error otherwise |
| `Runner.ChatResponseSucceeds` | scripts/send-prompts.py:133-143 | a 200 chat stream of delta chunks ending in `[DONE]` succeeds with the length and estimate of the concatenated contents |
| `Runner.CompletionResponseSucceeds` | scripts/send-prompts.py:133-143 | the same for a completions stream |
| `Runner.NonObjectFrameFails` | scripts/send-prompts.py:153-156 | a non-object JSON frame first in the body makes the request fail with `AttributeError` |
| `LoadTest.SettingsOf` | scripts/send-prompts.py:189-199 | each request gets the chat path exactly when `--completions` is absent, and the parsed base URL, model, API key, token limit, temperature and timeout unchanged |
| `LoadTest.EndpointFor` | scripts/send-prompts.py:176 | `--completions` selects `/v1/completions`, the chat path otherwise |
| `LoadTest.TotalBounds` | scripts/send-prompts.py:209-212 | every term is at most the sum, and the sum is zero exactly when every term is |
| `LoadTest.TotalAppend` | scripts/send-prompts.py:212 | a sum over two pieces is the sum of the sums |
| `LoadTest.TotalPermutation` | scripts/send-prompts.py:204-212 | a sum over the results does not depend on their order |
| `LoadTest.TotalBetween` | scripts/send-prompts.py:209-224 | terms between two bounds give a sum between the bounds times the count |
| `LoadTest.TotalAgrees` | scripts/send-prompts.py:212 | sums of agreeing terms are equal |
| `LoadTest.SuccessCount` | scripts/send-prompts.py:209 | there are no more successes than results |
| `LoadTest.Shortest` | scripts/send-prompts.py:222 | the shortest latency is one of the latencies and no other is shorter |
| `LoadTest.Longest` | scripts/send-prompts.py:223 | the longest latency is one of the latencies and no other is longer |
| `LoadTest.ExtremesPermutation` | scripts/send-prompts.py:222-223 | shortest and longest latency do not depend on the collection order |
| `LoadTest.ShortestBelow` | scripts/send-prompts.py:222 | the shortest latency of a reordering is no longer |
| `LoadTest.LongestAbove` | scripts/send-prompts.py:223 | the longest latency of a reordering is no shorter |
| `LoadTest.MeanBetween` | scripts/send-prompts.py:224 | a mean of terms between two bounds lies between them |
| `LoadTest.Stats` | scripts/send-prompts.py:221-224 | `min(latencies)` is a latency no other undercuts; `max(latencies)` is a latency no other exceeds; the average is `sum(latencies)/len(latencies)`; and shortest ≤ average ≤ longest |
| `LoadTest.Summarize` | scripts/send-prompts.py:209-224 | `success_count + error_count == len(results)`; the token total is the sum over all results; latency figures exactly when there are results |
| `LoadTest.SummaryOrderIndependent` | scripts/send-prompts.py:204-212 | the whole summary is the same for any collection order |
| `LoadTest.TokensOnlyFromSuccesses` | scripts/send-prompts.py:212 | with zero-token failures, the token total is the sum over the successful results |
| `LoadTest.RunLoadTest` | scripts/send-prompts.py:172-212 | concurrency below one makes `main` return 1 before any request is sent; otherwise exactly `concurrency` requests, the one for index `i` shaped for `i` and with result `Outcome` of its exchange, and the summary of those results |
| `LoadTest.RunTokensFromSuccesses` | scripts/send-prompts.py:209-212 | in a run, the printed token total counts successful responses only |

## Left out

- HTTP transport is not modelled. This covers `requests.post`, reading the status, and `iter_lines` with its splitting and Unicode decoding. The status, the decoded lines and any exception enter as an `Exchange`.
- `json.loads` is a parameter. Its grammar, number precision and duplicate-key handling are not modelled. JSON numbers are `real`, and integers and floats are not told apart.
- `ThreadPoolExecutor` and `as_completed` (lines 187-204) are not modelled. Requests are sent one after another in index order. `SummaryOrderIndependent` shows that the collection order does not matter to the summary. Concurrency itself, shared state and interleaving of output are not modelled.
- Wall-clock time (`time.time`) and `overall_time` are not modelled. Each request's latency is a `nat` supplied by the caller, so latencies are whole ticks rather than float seconds. The average is exact real division, not float division.
- LoadTest.RunLoadTest: the process exit status is not modelled. `main` returns 1 for a concurrency below one, but line 229 calls `main()` without `sys.exit`, so that value is discarded and the process exits with status 0 whenever `main` returns. Argument errors in `parse_args` (status 2) and exceptions escaping `main` (status 1) are outside the model. `Rejected.returned` is the value `main` returns, not an exit status.
- Argument parsing (lines 159-170) and its defaults are not modelled; `Args` is the parsed result.
- All `print` output and the `debug` flag are not modelled (lines 36-37, 43-44, 68-69, 73-74, 77-78, 129, 141, 147, 151, 155, 178-183, 215-226). The display rule of line 140 is modelled as `DisplayText`, but nothing prints it.
- Runner.ErrorText: the message part of an exception that escapes the decoder is left empty (`"AttributeError: "`). Python's wording of these messages differs between versions. The exceptions `requests` raises carry their name and message as given in the `Exchange`.
- Sse.HelloExample: does not state the final `content` binding. The example lemmas take their lines as any lines that carry the given frames (`Carries`) rather than as literal text. `DoneLineRecognised` and `DataLineOf` tie these to literal `data: ` lines.
- Exceptions other than those the decoder's own operations raise are not modelled. Examples are a `RecursionError` from deeply nested JSON and `MemoryError`.
- Strings are sequences of code points. Surrogates and the byte-level decoding of the body are not modelled.

=== FILE: loadtest.dfy ===
/** `main` (scripts/send-prompts.py:158-226): reject a concurrency below one,
    choose the endpoint, send one request per index, and summarise the
    results.

    The thread pool is replaced by sending the requests one after the other
    in index order; the summary is proved not to depend on the order the
    results are collected in, which is what `as_completed` leaves open. */
module LoadTest {
  import opened PyJson
  import opened Sse
  import opened Runner

  const CompletionsPath := "/v1/completions"

  /** The parsed command line. */
  datatype Args = Args(
    baseUrl: string,
    model: Option<string>,
    concurrency: int,
    maxTokens: int,
    temperature: real,
    timeout: int,
    apiKey: Option<string>,
    completions: bool)

  /** Line 176: `--completions` selects the completions path, the chat path
      otherwise. */
  function EndpointFor(completions: bool): (e: string)
    ensures e == ChatPath <==> !completions
    ensures e == CompletionsPath <==> completions
  {
    if completions then CompletionsPath else ChatPath
  }

  /** Lines 189-199: the parsed arguments handed to every `send_request`
      call, with the endpoint chosen by `--completions`. */
  function SettingsOf(args: Args): (s: Settings)
    ensures s.endpoint == ChatPath <==> !args.completions
    ensures s.baseUrl == args.baseUrl && s.model == args.model && s.apiKey == args.apiKey
    ensures s.maxTokens == args.maxTokens && s.temperature == args.temperature && s.timeout == args.timeout
  {
    Settings(args.baseUrl, args.model, args.maxTokens, args.temperature, args.timeout, args.apiKey,
             EndpointFor(args.completions))
  }

  // ----- Sums over the results -----

  /** `sum(f(r) for r in rs)`. */
  function Total<T>(rs: seq<T>, f: T -> nat): nat
  {
    if rs == [] then 0 else f(rs[0]) + Total(rs[1..], f)
  }

  /** Every term is at most the sum, and the sum is zero exactly when every
      term is. */
  lemma {:induction false} TotalBounds<T>(rs: seq<T>, f: T -> nat)
    ensures forall k :: 0 <= k < |rs| ==> f(rs[k]) <= Total(rs, f)
    ensures Total(rs, f) == 0 <==> forall k :: 0 <= k < |rs| ==> f(rs[k]) == 0
  {
    if rs != [] {
      var tail := rs[1..];
      TotalBounds(tail, f);
      assert forall k :: 1 <= k < |rs| ==> rs[k] == tail[k - 1];
    }
  }

  lemma {:induction false} TotalAppend<T>(a: seq<T>, b: seq<T>, f: T -> nat)
    ensures Total(a + b, f) == Total(a, f) + Total(b, f)
  {
    if a == [] {
      assert a + b == b;
    } else {
      assert (a + b)[1..] == a[1..] + b;
      TotalAppend(a[1..], b, f);
    }
  }

  /** Taking the term at `j` out of a sum. */
  lemma {:induction false} TotalRemove<T>(b: seq<T>, j: nat, f: T -> nat)
    requires j < |b|
    ensures Total(b, f) == f(b[j]) + Total(b[..j] + b[j + 1..], f)
    decreases j
  {
    if j == 0 {
      assert b[..0] + b[1..] == b[1..];
    } else {
      var tail := b[1..];
      TotalRemove(tail, j - 1, f);
      var rest := b[..j] + b[j + 1..];
      assert rest[0] == b[0];
      assert rest[1..] == tail[..j - 1] + tail[j..];
    }
  }

  /** Taking the element at `j` out of a sequence takes one copy of it out
      of its multiset. */
  lemma MultisetRemove<T>(b: seq<T>, j: nat)
    requires j < |b|
    ensures multiset(b[..j] + b[j + 1..]) == multiset(b) - multiset{b[j]}
  {
    assert b == b[..j] + [b[j]] + b[j + 1..];
  }

  /** Dropping the head of a sequence takes one copy of it out of its
      multiset. */
  lemma MultisetTail<T>(a: seq<T>)
    requires a != []
    ensures multiset(a[1..]) == multiset(a) - multiset{a[0]}
  {
    assert a == [a[0]] + a[1..];
  }

  /** Where `a`'s first element sits in a permutation `b` of `a`. */
  lemma IndexOfFirst<T>(a: seq<T>, b: seq<T>) returns (j: nat)
    requires a != [] && multiset(a) == multiset(b)
    ensures j < |b| && b[j] == a[0]
  {
    assert a[0] in multiset(a);
    assert a[0] in b;
    j :| j < |b| && b[j] == a[0];
  }

  /** A sum does not depend on the order of its terms. */
  lemma {:induction false} TotalPermutation<T>(a: seq<T>, b: seq<T>, f: T -> nat)
    requires multiset(a) == multiset(b)
    ensures Total(a, f) == Total(b, f)
    decreases |a|
  {
    if a != [] {
      var j := IndexOfFirst(a, b);
      var rest := b[..j] + b[j + 1..];
      MultisetRemove(b, j);
      MultisetTail(a);
      TotalPermutation(a[1..], rest, f);
      TotalMoveFront(a, b, j, f);
    }
  }

  /** If the rest of `a` sums like `b` without its `j`-th term, and that
      term is `a`'s first, then `a` and `b` have the same sum. */
  lemma TotalMoveFront<T>(a: seq<T>, b: seq<T>, j: nat, f: T -> nat)
    requires a != [] && j < |b| && b[j] == a[0]
    requires Total(a[1..], f) == Total(b[..j] + b[j + 1..], f)
    ensures Total(a, f) == Total(b, f)
  {
    TotalRemove(b, j, f);
  }

  lemma MulSucc(c: nat, n: nat)
    ensures c * (n + 1) == c * n + c
  {
  }

  /** Terms between `lo` and `hi` give a sum between `lo` and `hi` times the
      number of terms. */
  lemma {:induction false} TotalBetween<T>(rs: seq<T>, f: T -> nat, lo: nat, hi: nat)
    requires forall k :: 0 <= k < |rs| ==> lo <= f(rs[k]) <= hi
    ensures lo * |rs| <= Total(rs, f) <= hi * |rs|
  {
    if rs != [] {
      var tail := rs[1..];
      assert forall k :: 0 <= k < |tail| ==> tail[k] == rs[k + 1];
      TotalBetween(tail, f, lo, hi);
      MulSucc(lo, |tail|);
      MulSucc(hi, |tail|);
    }
  }

  /** Terms that agree give equal sums. */
  lemma {:induction false} TotalAgrees<T>(rs: seq<T>, f: T -> nat, g: T -> nat)
    requires forall k :: 0 <= k < |rs| ==> f(rs[k]) == g(rs[k])
    ensures Total(rs, f) == Total(rs, g)
  {
    if rs != [] {
      TotalAgrees(rs[1..], f, g);
    }
  }

  function SuccessOne(r: RequestResult): nat
  {
    if r.Succeeded? then 1 else 0
  }

  function TokensOf(r: RequestResult): nat
  {
    r.tokens
  }

  function SuccessTokensOf(r: RequestResult): nat
  {
    if r.Succeeded? then r.tokens else 0
  }

  function LatencyOf(r: RequestResult): nat
  {
    r.latency
  }

  /** Line 209: the number of successful results. */
  function SuccessCount(rs: seq<RequestResult>): (n: nat)
    ensures n <= |rs|
  {
    TotalBetween(rs, SuccessOne, 0, 1);
    Total(rs, SuccessOne)
  }

  // ----- Latency extremes -----

  /** `min(latencies)`. */
  function Shortest(rs: seq<RequestResult>): (m: nat)
    requires rs != []
    ensures exists k :: 0 <= k < |rs| && rs[k].latency == m
    ensures forall k :: 0 <= k < |rs| ==> m <= rs[k].latency
  {
    if |rs| == 1 then rs[0].latency
    else
      var m := Shortest(rs[1..]);
      assert forall k :: 1 <= k < |rs| ==> rs[k] == rs[1..][k - 1];
      if rs[0].latency <= m then rs[0].latency else m
  }

  /** `max(latencies)`. */
  function Longest(rs: seq<RequestResult>): (m: nat)
    requires rs != []
    ensures exists k :: 0 <= k < |rs| && rs[k].latency == m
    ensures forall k :: 0 <= k < |rs| ==> rs[k].latency <= m
  {
    if |rs| == 1 then rs[0].latency
    else
      var m := Longest(rs[1..]);
      assert forall k :: 1 <= k < |rs| ==> rs[k] == rs[1..][k - 1];
      if m <= rs[0].latency then rs[0].latency else m
  }

  /** Shortest and longest latency do not depend on the order of the
      results. */
  lemma ExtremesPermutation(a: seq<RequestResult>, b: seq<RequestResult>)
    requires a != [] && multiset(a) == multiset(b)
    ensures b != []
    ensures Shortest(a) == Shortest(b) && Longest(a) == Longest(b)
  {
    assert a[0] in multiset(b);
    ShortestBelow(a, b);
    ShortestBelow(b, a);
    LongestAbove(a, b);
    LongestAbove(b, a);
  }

  lemma ShortestBelow(a: seq<RequestResult>, b: seq<RequestResult>)
    requires a != [] && b != [] && multiset(a) == multiset(b)
    ensures Shortest(b) <= Shortest(a)
  {
    var k :| 0 <= k < |a| && a[k].latency == Shortest(a);
    assert a[k] in multiset(b);
    var j :| 0 <= j < |b| && b[j] == a[k];
  }

  lemma LongestAbove(a: seq<RequestResult>, b: seq<RequestResult>)
    requires a != [] && b != [] && multiset(a) == multiset(b)
    ensures Longest(a) <= Longest(b)
  {
    var k :| 0 <= k < |a| && a[k].latency == Longest(a);
    assert a[k] in multiset(b);
    var j :| 0 <= j < |b| && b[j] == a[k];
  }

  /** A total between `lo * n` and `hi * n` has its mean between `lo` and `hi`. */
  lemma MeanBetween(total: nat, n: nat, lo: nat, hi: nat)
    requires n > 0 && lo * n <= total <= hi * n
    ensures lo as real <= total as real / n as real <= hi as real
  {
    var t, m := total as real, n as real;
    assert lo as real * m <= t <= hi as real * m;
    assert t / m * m == t;
  }

  // ----- The summary -----

  datatype LatencyStats = LatencyStats(shortest: nat, longest: nat, average: real)

  /** The figures printed after the run (lines 209-225). */
  datatype Summary = Summary(successes: nat, errors: nat, totalTokens: nat, latency: Option<LatencyStats>)

  /** Lines 222-224: the shortest, longest and mean latency of a non-empty
      run; the mean lies between the other two. */
  function Stats(rs: seq<RequestResult>): (s: LatencyStats)
    requires rs != []
    ensures (exists k :: 0 <= k < |rs| && rs[k].latency == s.shortest)
            && forall k :: 0 <= k < |rs| ==> s.shortest <= rs[k].latency
    ensures (exists k :: 0 <= k < |rs| && rs[k].latency == s.longest)
            && forall k :: 0 <= k < |rs| ==> rs[k].latency <= s.longest
    ensures s.average == Total(rs, LatencyOf) as real / |rs| as real
    ensures s.shortest as real <= s.average <= s.longest as real
  {
    var lo, hi := Shortest(rs), Longest(rs);
    TotalBetween(rs, LatencyOf, lo, hi);
    MeanBetween(Total(rs, LatencyOf), |rs|, lo, hi);
    LatencyStats(lo, hi, Total(rs, LatencyOf) as real / |rs| as real)
  }

  /** Lines 209-212 and 221-224: counts, the token total, and the latency
      figures when there is at least one result. */
  function Summarize(rs: seq<RequestResult>): (s: Summary)
    ensures s.successes + s.errors == |rs|
    ensures s.successes == Total(rs, SuccessOne)
    ensures s.totalTokens == Total(rs, TokensOf)
    ensures s.latency.Some? <==> rs != []
  {
    var successes := SuccessCount(rs);
    Summary(successes, |rs| - successes, Total(rs, TokensOf), if rs == [] then None else Some(Stats(rs)))
  }

  /** The summary does not depend on the order in which results are
      collected. */
  lemma SummaryOrderIndependent(a: seq<RequestResult>, b: seq<RequestResult>)
    requires multiset(a) == multiset(b)
    ensures Summarize(a) == Summarize(b)
  {
    assert |a| == |multiset(a)| == |multiset(b)| == |b|;
    TotalPermutation(a, b, SuccessOne);
    TotalPermutation(a, b, TokensOf);
    TotalPermutation(a, b, LatencyOf);
    if a != [] {
      ExtremesPermutation(a, b);
    }
  }

  /** When every failure carries zero tokens, the token total is the sum
      over the successful results alone. */
  lemma TokensOnlyFromSuccesses(rs: seq<RequestResult>)
    requires forall k :: 0 <= k < |rs| ==> rs[k].Failed? ==> rs[k].tokens == 0
    ensures Summarize(rs).totalTokens == Total(rs, SuccessTokensOf)
  {
    TotalAgrees(rs, TokensOf, SuccessTokensOf);
  }

  // ----- The run -----

  /** What `main` ends with: the value 1 it returns for a bad concurrency
      (line 229 discards it), or the requests sent, their results, and the
      summary. */
  datatype Run =
    | Rejected(returned: int)
    | Completed(requests: seq<HttpRequest>, results: seq<RequestResult>, summary: Summary)

  /** Every request in `requests` has the shape `send_request` gives the
      request at its index. */
  ghost predicate AllShaped(s: Settings, requests: seq<HttpRequest>)
  {
    forall i :: 0 <= i < |requests| ==> Shaped(s, i, requests[i])
  }

  /** Appending request `|requests|` keeps every request shaped. */
  lemma AllShapedExtend(s: Settings, requests: seq<HttpRequest>, req: HttpRequest)
    requires AllShaped(s, requests) && Shaped(s, |requests|, req)
    ensures AllShaped(s, requests + [req])
  {
    var rq := requests + [req];
    forall i | 0 <= i < |rq|
      ensures Shaped(s, i, rq[i])
    {
      if i < |requests| {
        assert rq[i] == requests[i];
      }
    }
  }

  /** `xs[i]` is `f(i)` at every index. */
  ghost predicate Follows<T>(xs: seq<T>, f: nat -> T)
  {
    forall i :: 0 <= i < |xs| ==> xs[i] == f(i)
  }

  /** Appending `f(|xs|)` keeps `xs` following `f`. */
  lemma FollowsExtend<T>(xs: seq<T>, x: T, f: nat -> T)
    requires Follows(xs, f) && x == f(|xs|)
    ensures Follows(xs + [x], f)
  {
    var ys := xs + [x];
    forall i | 0 <= i < |ys|
      ensures ys[i] == f(i)
    {
      if i < |xs| {
        assert ys[i] == xs[i];
      }
    }
  }

  /** `main` after argument parsing. `network(i)` is what the server and
      the transport do with request `i`, `elapsed(i)` how long it took. */
  method RunLoadTest(args: Args, parse: string -> Option<Json>, network: nat -> Exchange, elapsed: nat -> nat)
    returns (run: Run)
    ensures args.concurrency < 1 <==> run.Rejected?
    ensures run.Rejected? ==> run.returned == 1
    ensures run.Completed? ==>
      && |run.requests| == |run.results| == args.concurrency
      && (forall i :: 0 <= i < |run.requests| ==> Shaped(SettingsOf(args), i, run.requests[i]))
      && (forall i :: 0 <= i < |run.results| ==>
            run.results[i] == Outcome(EndpointFor(args.completions), parse, network(i), elapsed(i)))
      && run.summary == Summarize(run.results)
  {
    if args.concurrency < 1 {
      return Rejected(1);
    }
    var settings := SettingsOf(args);
    ghost var expected := (i: nat) => Outcome(settings.endpoint, parse, network(i), elapsed(i));
    var requests: seq<HttpRequest> := [];
    var results: seq<RequestResult> := [];
    for idx := 0 to args.concurrency
      invariant |requests| == |results| == idx
      invariant AllShaped(settings, requests)
      invariant Follows(results, expected)
    {
      var req, result := SendRequest(idx, settings, parse, network(idx), elapsed(idx));
      AllShapedExtend(settings, requests, req);
      FollowsExtend(results, result, expected);
      requests := requests + [req];
      results := results + [result];
    }
    return Completed(requests, results, Summarize(results));
  }

  /** Every result of a run carries zero tokens when it failed, so the
      printed token total counts only successful responses. */
  lemma RunTokensFromSuccesses(args: Args, parse: string -> Option<Json>, network: nat -> Exchange,
                               elapsed: nat -> nat, results: seq<RequestResult>)
    requires forall i :: 0 <= i < |results| ==>
      results[i] == Outcome(EndpointFor(args.completions), parse, network(i), elapsed(i))
    ensures Summarize(results).totalTokens == Total(results, SuccessTokensOf)
  {
    TokensOnlyFromSuccesses(results);
  }
}

=== FILE: pyjson.dfy ===
/** JSON values as `json.loads` hands them to Python, and the few Python
    operations the stream decoder applies to them: `dict.get`, indexing with
    `[0]`, and the truth value tested by `if x:`. */
module PyJson {

  datatype Option<+T> = None | Some(value: T)

  /** A decoded JSON value. Objects are dicts, arrays are lists, `null` is
      `None`. Integers and floats are both numbers; `real` holds either. */
  datatype Json =
    | JNull
    | JBool(b: bool)
    | JNum(n: real)
    | JStr(s: string)
    | JArr(items: seq<Json>)
    | JObj(fields: map<string, Json>)

  /** Python's truth value of a decoded value: `None`, `False`, zero and
      empty containers are false, everything else is true. */
  predicate Truthy(v: Json)
  {
    match v
    case JNull => false
    case JBool(b) => b
    case JNum(n) => n != 0.0
    case JStr(s) => s != ""
    case JArr(items) => items != []
    case JObj(fields) => fields != map[]
  }

  /** The falsy values are exactly `None`, `False`, `0`, `""`, `[]` and
      `{}`. */
  lemma FalsyValues(v: Json)
    ensures !Truthy(v) <==> v in {JNull, JBool(false), JNum(0.0), JStr(""), JArr([]), JObj(map[])}
  {
  }

  /** The Python exceptions the decoder does not catch. */
  datatype PyError = AttributeError | TypeError | UnboundLocalError

  /** Python's name for an exception, as `type(e).__name__` gives it. */
  function ErrorName(e: PyError): (name: string)
    ensures name != ""
  {
    match e
    case AttributeError => "AttributeError"
    case TypeError => "TypeError"
    case UnboundLocalError => "UnboundLocalError"
  }

  /** Different exceptions have different names. */
  lemma ErrorNamesDistinct(a: PyError, b: PyError)
    requires ErrorName(a) == ErrorName(b)
    ensures a == b
  {
    assert ErrorName(a)[0] == ErrorName(b)[0];
  }

  /** The result of one Python expression on a decoded value: a value, a
      `KeyError`/`IndexError` (which the decoder catches), or an exception
      that escapes it. */
  datatype Eval = Value(v: Json) | Caught | Raise(error: PyError)

  /** `obj.get(key, default)`. Only a dict has `.get`; on anything else
      Python raises `AttributeError`. A key present with value `null`
      yields `None`, not the default. */
  function Get(obj: Json, key: string, default: Json): (r: Eval)
    ensures r.Value? <==> obj.JObj?
    ensures !r.Value? ==> r == Raise(AttributeError)
    ensures obj.JObj? && key !in obj.fields ==> r == Value(default)
    ensures obj.JObj? && key in obj.fields ==> r == Value(obj.fields[key])
  {
    match obj
    case JObj(fields) => Value(if key in fields then fields[key] else default)
    case _ => Raise(AttributeError)
  }

  /** `v[0]`. A list or a string yields its first element (an `IndexError`
      when empty); a dict raises `KeyError`, since decoded keys are strings;
      numbers, booleans and `None` are not subscriptable (`TypeError`). */
  function First(v: Json): (r: Eval)
    ensures r.Value? <==> (v.JArr? || v.JStr?) && Truthy(v)
    ensures v.JArr? && v.items != [] ==> r == Value(v.items[0])
    ensures v.JStr? && v.s != "" ==> r == Value(JStr([v.s[0]]))
    ensures v.JObj? ==> r == Caught
    ensures !(v.JArr? || v.JStr? || v.JObj?) ==> r == Raise(TypeError)
  {
    match v
    case JArr(items) => if items == [] then Caught else Value(items[0])
    case JStr(s) => if s == "" then Caught else Value(JStr([s[0]]))
    case JObj(_) => Caught
    case _ => Raise(TypeError)
  }
}

=== FILE: runner.dfy ===
/** `send_request` (scripts/send-prompts.py:82-156): choose a prompt, shape
    the headers and the JSON body, post them, and classify what comes back
    into a result record.

    The network is an `Exchange` handed in by the caller: either `requests`
    raised before a response existed, or a status code, the lines the
    response yielded, and possibly an exception raised by the transport
    after those lines. The elapsed time is handed in as well. */
module Runner {
  import opened PyJson
  import opened Text
  import opened Sse

  const Prompts := [
    "Explain what an LLM is in one sentence.",
    "Give a 3-bullet checklist for debugging Kubernetes pods.",
    "Write a haiku about GPUs.",
    "What does vLLM do?",
    "Explain concurrency in simple terms."
  ]

  const SystemPrompt := "You are a helpful assistant. Keep responses brief."

  /** `idx % len(PROMPTS)`: Python's `%` with a positive divisor is never
      negative, like Dafny's. */
  function PromptIndex(idx: int): (k: nat)
    ensures k < |Prompts|
    ensures (idx - k) % |Prompts| == 0
    ensures 0 <= idx < |Prompts| ==> k == idx
  {
    idx % |Prompts|
  }

  /** Truth value of an optional string argument: given and non-empty. */
  predicate Given(o: Option<string>)
    ensures Given(o) <==> o != None && o != Some("")
  {
    o.Some? && o.value != ""
  }

  /** The parameters `send_request` receives besides the index. */
  datatype Settings = Settings(
    baseUrl: string,
    model: Option<string>,
    maxTokens: int,
    temperature: real,
    timeout: int,
    apiKey: Option<string>,
    endpoint: string)

  /** What is handed to `requests.post`. */
  datatype HttpRequest = HttpRequest(url: string, headers: map<string, string>, payload: map<string, Json>, timeout: int)

  function Message(role: string, content: string): Json
  {
    JObj(map["role" := JStr(role), "content" := JStr(content)])
  }

  /** Everything the harness promises about the request for index `idx`:
      the URL, the two possible headers, the body fields per endpoint,
      streaming always on, and `model` only when one is given. */
  predicate Shaped(s: Settings, idx: int, req: HttpRequest)
  {
    var prompt := Prompts[PromptIndex(idx)];
    var chat := s.endpoint == ChatPath;
    && req.url == s.baseUrl + s.endpoint
    && req.timeout == s.timeout
    && req.headers.Keys == {"Content-Type"} + (if Given(s.apiKey) then {"Authorization"} else {})
    && req.headers["Content-Type"] == "application/json"
    && (Given(s.apiKey) ==> req.headers["Authorization"] == "Bearer " + s.apiKey.value)
    && req.payload.Keys == {"max_tokens", "temperature", "stream"}
                           + (if chat then {"messages"} else {"prompt"})
                           + (if Given(s.model) then {"model"} else {})
    && req.payload["stream"] == JBool(true)
    && req.payload["max_tokens"] == JNum(s.maxTokens as real)
    && req.payload["temperature"] == JNum(s.temperature)
    && (chat ==> req.payload["messages"] == JArr([Message("system", SystemPrompt), Message("user", prompt)]))
    && (!chat ==> req.payload["prompt"] == JStr(prompt))
    && (Given(s.model) ==> req.payload["model"] == JStr(s.model.value))
  }

  /** The shape leaves nothing open: two requests of that shape are equal. */
  lemma ShapedUnique(s: Settings, idx: int, a: HttpRequest, b: HttpRequest)
    requires Shaped(s, idx, a) && Shaped(s, idx, b)
    ensures a == b
  {
    assert a.headers == b.headers;
    assert a.payload == b.payload;
  }

  /** Lines 93-120: the request is built by inserting into two dicts. */
  method BuildRequest(s: Settings, idx: int) returns (req: HttpRequest)
    ensures Shaped(s, idx, req)
  {
    var prompt := Prompts[PromptIndex(idx)];
    var headers := map["Content-Type" := "application/json"];
    if Given(s.apiKey) {
      headers := headers["Authorization" := "Bearer " + s.apiKey.value];
    }
    var payload: map<string, Json>;
    if s.endpoint == ChatPath {
      payload := map[
        "messages" := JArr([Message("system", SystemPrompt), Message("user", prompt)]),
        "max_tokens" := JNum(s.maxTokens as real),
        "temperature" := JNum(s.temperature),
        "stream" := JBool(true)];
    } else {
      payload := map[
        "prompt" := JStr(prompt),
        "max_tokens" := JNum(s.maxTokens as real),
        "temperature" := JNum(s.temperature),
        "stream" := JBool(true)];
    }
    if Given(s.model) {
      payload := payload["model" := JStr(s.model.value)];
    }
    req := HttpRequest(s.baseUrl + s.endpoint, headers, payload, s.timeout);
  }

  /** An exception raised while the request is in flight, as the three
      `except` clauses tell them apart. */
  datatype TransportError =
    | Timeout
    | HttpError(detail: string)
    | Other(name: string, detail: string)

  /** What the network did with one request: `requests.post` raised, or a
      response with a status code whose body yielded `lines`, after which
      the transport possibly raised `cut`. */
  datatype Exchange =
    | Refused(error: TransportError)
    | Answered(status: nat, lines: seq<string>, cut: Option<TransportError>)

  /** Why a request failed. */
  datatype Failure = HttpStatus(code: nat) | Thrown(error: TransportError)

  /** The `error` string of a failed result. */
  function ErrorText(f: Failure): (e: string)
    ensures e != ""
    ensures f.HttpStatus? ==> |e| > 5 && e[..5] == "HTTP " && AllDigits(e[5..]) && DecimalValue(e[5..]) == f.code
    ensures f == Thrown(Timeout) ==> e == "timeout"
    ensures f.Thrown? && f.error.HttpError? ==> e == "HTTP error: " + f.error.detail
    ensures f.Thrown? && f.error.Other? ==> e == f.error.name + ": " + f.error.detail
  {
    match f
    case HttpStatus(code) =>
      DecimalRoundTrip(code);
      assert ("HTTP " + DecimalDigits(code))[5..] == DecimalDigits(code);
      "HTTP " + DecimalDigits(code)
    case Thrown(Timeout) => "timeout"
    case Thrown(HttpError(d)) => "HTTP error: " + d
    case Thrown(Other(name, d)) => name + ": " + d
  }

  /** Two status failures with the same error text had the same status. */
  lemma StatusErrorsDistinct(a: nat, b: nat)
    requires ErrorText(HttpStatus(a)) == ErrorText(HttpStatus(b))
    ensures a == b
  {
    assert DecimalDigits(a) == ErrorText(HttpStatus(a))[5..];
    assert DecimalDigits(b) == ErrorText(HttpStatus(b))[5..];
    DecimalDigitsInjective(a, b);
  }

  /** The result dict: `tokens` is present in both shapes. */
  datatype RequestResult =
    | Succeeded(latency: nat, tokens: nat, textLength: nat)
    | Failed(latency: nat, tokens: nat, error: Failure)

  /** `len(text) // 4 if text else 0`: about four characters per token,
      rounded down. */
  function EstimateTokens(text: string): (t: nat)
    ensures 4 * t <= |text| < 4 * t + 4
    ensures t <= |text|
  {
    if text != "" then |text| / 4 else 0
  }

  /** Line 140: newlines shown as spaces, cut to 256 characters, and a
      placeholder for an empty text. */
  function DisplayText(text: string): (r: string)
    ensures text == "" ==> r == "(empty response)"
    ensures text != "" ==> |r| == if |text| < 256 then |text| else 256
    ensures text != "" ==> forall k :: 0 <= k < |r| ==> r[k] == (if text[k] == '\n' then ' ' else text[k])
    ensures forall k :: 0 <= k < |r| ==> r[k] != '\n'
  {
    if text == "" then "(empty response)"
    else
      var flat := ReplaceNewlines(text);
      if |flat| < 256 then flat else flat[..256]
  }

  /** The stream ended normally: the decoder did not raise, and either it
      met `[DONE]` or the transport raised nothing after the last line. */
  predicate Completes(chat: bool, parse: string -> Option<Json>, lines: seq<string>, cut: Option<TransportError>)
  {
    var f := Decode(chat, parse, lines);
    f.status.Finished? || (f.status.Running? && cut.None?)
  }

  /** What `send_request` returns for one exchange (lines 123-156). */
  function Outcome(endpoint: string, parse: string -> Option<Json>, ex: Exchange, latency: nat): (r: RequestResult)
    ensures r.latency == latency
    ensures r.Failed? ==> r.tokens == 0
    ensures r.Succeeded? <==> ex.Answered? && ex.status == 200 && Completes(endpoint == ChatPath, parse, ex.lines, ex.cut)
    ensures r.Succeeded? ==> r.textLength == |Decode(endpoint == ChatPath, parse, ex.lines).dec.text|
    ensures r.Succeeded? ==> r.tokens == EstimateTokens(Decode(endpoint == ChatPath, parse, ex.lines).dec.text)
    ensures ex.Answered? && ex.status != 200 ==> r.error == HttpStatus(ex.status)
    ensures ex.Refused? ==> r.error == Thrown(ex.error)
  {
    match ex
    case Refused(e) => Failed(latency, 0, Thrown(e))
    case Answered(status, lines, cut) =>
      if status != 200 then Failed(latency, 0, HttpStatus(status))
      else
        var f := Decode(endpoint == ChatPath, parse, lines);
        match f.status
        case Raised(e) => Failed(latency, 0, Thrown(Other(ErrorName(e), "")))
        case Finished => Succeeded(latency, EstimateTokens(f.dec.text), |f.dec.text|)
        case Running =>
          if cut.Some? then Failed(latency, 0, Thrown(cut.value))
          else Succeeded(latency, EstimateTokens(f.dec.text), |f.dec.text|)
  }

  /** `send_request` for request `idx`. */
  method SendRequest(idx: int, s: Settings, parse: string -> Option<Json>, ex: Exchange, latency: nat)
    returns (req: HttpRequest, result: RequestResult)
    ensures Shaped(s, idx, req)
    ensures result == Outcome(s.endpoint, parse, ex, latency)
  {
    req := BuildRequest(s, idx);
    if ex.Refused? {
      return req, Failed(latency, 0, Thrown(ex.error));
    }
    if ex.status != 200 {
      return req, Failed(latency, 0, HttpStatus(ex.status));
    }
    var f := ParseSseStream(ex.lines, s.endpoint, parse);
    if f.status.Raised? {
      return req, Failed(latency, 0, Thrown(Other(ErrorName(f.status.error), "")));
    }
    if f.status.Running? && ex.cut.Some? {
      return req, Failed(latency, 0, Thrown(ex.cut.value));
    }
    var text := f.dec.text;
    result := Succeeded(latency, EstimateTokens(text), |text|);
  }

  // ----- Properties of the classification -----

  /** Once the stream reached `[DONE]`, a transport failure afterwards does
      not change the result. */
  lemma DoneShieldsLaterFailure(endpoint: string, parse: string -> Option<Json>, lines: seq<string>,
                                cut: TransportError, latency: nat)
    requires Decode(endpoint == ChatPath, parse, lines).status.Finished?
    ensures Outcome(endpoint, parse, Answered(200, lines, Some(cut)), latency)
         == Outcome(endpoint, parse, Answered(200, lines, None), latency)
  {
  }

  /** A stream that stops without `[DONE]` still succeeds when the transport
      ends it cleanly; the same lines followed by a transport error fail
      with that error. */
  lemma MissingDoneStillSucceeds(endpoint: string, parse: string -> Option<Json>, lines: seq<string>,
                                 cut: TransportError, latency: nat)
    requires Decode(endpoint == ChatPath, parse, lines).status.Running?
    ensures Outcome(endpoint, parse, Answered(200, lines, None), latency).Succeeded?
    ensures Outcome(endpoint, parse, Answered(200, lines, Some(cut)), latency) == Failed(latency, 0, Thrown(cut))
  {
  }

  /** A 200 response whose body is a stream of chat delta frames ending in
      `[DONE]` succeeds, and its length and token estimate are those of the
      concatenated contents. */
  lemma ChatResponseSucceeds(parse: string -> Option<Json>, frames: seq<string>, parts: seq<string>,
                             done: string, after: seq<string>, cut: Option<TransportError>, latency: nat)
    requires |frames| == |parts|
    requires forall k :: 0 <= k < |frames| ==> Carries(parse, frames[k], ChatDeltaFrame(parts[k]))
    requires IsDoneLine(done)
    ensures Outcome(ChatPath, parse, Answered(200, frames + [done] + after, cut), latency)
         == Succeeded(latency, EstimateTokens(Concat(parts)), |Concat(parts)|)
  {
    ChatStreamConcatenates(parse, Start.dec, frames, parts);
    DoneEndsDecoding(true, parse, Start, frames, done, after);
  }

  /** The same for a completions endpoint and a stream of completion
      frames. */
  lemma CompletionResponseSucceeds(endpoint: string, parse: string -> Option<Json>, frames: seq<string>,
                                   parts: seq<string>, done: string, after: seq<string>,
                                   cut: Option<TransportError>, latency: nat)
    requires endpoint != ChatPath
    requires |frames| == |parts|
    requires forall k :: 0 <= k < |frames| ==> Carries(parse, frames[k], CompletionFrame(parts[k]))
    requires IsDoneLine(done)
    ensures Outcome(endpoint, parse, Answered(200, frames + [done] + after, cut), latency)
         == Succeeded(latency, EstimateTokens(Concat(parts)), |Concat(parts)|)
  {
    CompletionStreamConcatenates(parse, Start.dec, frames, parts);
    DoneEndsDecoding(false, parse, Start, frames, done, after);
  }

  /** A JSON frame that is not an object makes the request fail with an
      `AttributeError`, whatever the transport does afterwards. */
  lemma NonObjectFrameFails(endpoint: string, parse: string -> Option<Json>, line: string, data: Json,
                            after: seq<string>, cut: Option<TransportError>, latency: nat)
    requires Carries(parse, line, data) && !data.JObj?
    ensures Outcome(endpoint, parse, Answered(200, [line] + after, cut), latency)
         == Failed(latency, 0, Thrown(Other("AttributeError", "")))
  {
    var chat := endpoint == ChatPath;
    NonObjectPayloadEscapes(chat, parse, Start.dec, line, data);
    StoppedIgnoresRest(chat, parse, Start, [line], after);
    FeedFirst(chat, parse, Start.dec, [line]);
  }
}

=== FILE: sse.dfy ===
/** `parse_sse_stream` (scripts/send-prompts.py:17-80): one forward pass over
    the lines of a streamed response, reading the `data:` field of each
    server-sent event (section 9.2 of the WHATWG HTML Living Standard, in the
    literal-prefix form the harness uses), stopping at `[DONE]`, skipping
    payloads that are not JSON, and appending the content of each frame.

    The decoder is specified by `Step` (one line) and `Feed` (a left fold with
    early exit); `ParseSseStream` is the loop itself, proved equal to the fold. */
module Sse {
  import opened PyJson
  import opened Text

  const ChatPath := "/v1/chat/completions"
  const DataPrefix := "data: "
  const DoneSentinel := "[DONE]"

  /** The decoder's local variables: the three counters, the accumulated
      text, and `content`, which the loop does not reset between lines
      (`None` while no frame has bound it yet). */
  datatype Decoder = Decoder(text: string, chunks: nat, lines: nat, empties: nat, content: Option<Json>)

  /** Why the loop is not (yet) over: still reading, left by `break` at the
      sentinel, or left by an exception the decoder does not catch. */
  datatype Status = Running | Finished | Raised(error: PyError)

  datatype Fold = Fold(status: Status, dec: Decoder)

  const Start := Fold(Running, Decoder("", 0, 0, 0, None))

  /** `line.startswith("data: ")`: the line is the prefix followed by the
      rest. */
  predicate IsDataLine(line: string)
  {
    |line| >= |DataPrefix| && line[..|DataPrefix|] == DataPrefix
  }

  /** `line[6:].strip()`: the part of the line after the prefix, without the
      whitespace around it. */
  function Payload(line: string): string
    requires IsDataLine(line)
  {
    Strip(line[|DataPrefix|..])
  }

  /** Stripping the text from index `n` on leaves a slice of the whole line
      with only whitespace between `n` and the slice and after it. */
  lemma StripSuffix(line: string, n: nat) returns (i: nat, j: nat)
    requires n <= |line|
    ensures n <= i <= j <= |line| && Strip(line[n..]) == line[i..j]
    ensures forall k :: n <= k < i ==> IsSpace(line[k])
    ensures forall k :: j <= k < |line| ==> IsSpace(line[k])
  {
    var rest := line[n..];
    var a, b := StripBounds(rest);
    ShiftSlice(line, n, a, b);
    i, j := n + a, n + b;
    assert Strip(rest) == rest[a..b] == line[i..j];
  }

  /** A slice of `line[n..]`, and the whitespace around it, seen in `line`. */
  lemma ShiftSlice(line: string, n: nat, i: nat, j: nat)
    requires n <= |line| && i <= j <= |line| - n
    requires forall k :: 0 <= k < i ==> IsSpace(line[n..][k])
    requires forall k :: j <= k < |line| - n ==> IsSpace(line[n..][k])
    ensures line[n..][i..j] == line[n + i..n + j]
    ensures forall k :: n <= k < n + i ==> IsSpace(line[k])
    ensures forall k :: n + j <= k < |line| ==> IsSpace(line[k])
  {
    var rest := line[n..];
    assert forall k :: n <= k < |line| ==> line[k] == rest[k - n];
  }

  /** `data_str == "[DONE]"` on a data line: the sentinel stands after the
      prefix, with nothing but whitespace around it. */
  predicate IsDoneLine(line: string)
  {
    IsDataLine(line) && Payload(line) == DoneSentinel
  }

  /** A data line is the prefix followed by the rest of the line. */
  lemma DataLinePrefixed(line: string)
    ensures IsDataLine(line) <==> |line| >= |DataPrefix| && line == DataPrefix + line[|DataPrefix|..]
  {
    if |line| >= |DataPrefix| && line == DataPrefix + line[|DataPrefix|..] {
      assert line[..|DataPrefix|] == (DataPrefix + line[|DataPrefix|..])[..|DataPrefix|];
    }
  }

  /** The payload is the text after the prefix without the whitespace
      around it: a slice of the line with non-space ends. */
  lemma PayloadTrimmed(line: string)
    requires IsDataLine(line)
    ensures var p := Payload(line);
            && |p| <= |line| - |DataPrefix|
            && (p == [] || (!IsSpace(p[0]) && !IsSpace(p[|p| - 1])))
            && exists i, j :: |DataPrefix| <= i <= j <= |line| && p == line[i..j]
                              && (forall k :: |DataPrefix| <= k < i ==> IsSpace(line[k]))
                              && (forall k :: j <= k < |line| ==> IsSpace(line[k]))
  {
    var n := |DataPrefix|;
    var p := Payload(line);
    assert p == Strip(line[n..]);
    var i, j := StripSuffix(line, n);
    assert n <= i <= j <= |line| && p == line[i..j];
  }

  /** On the sentinel line, `[DONE]` stands after the prefix with nothing but
      whitespace around it. */
  lemma DoneLineShape(line: string)
    requires IsDoneLine(line)
    ensures |line| >= |DataPrefix| + |DoneSentinel|
    ensures exists i, j :: |DataPrefix| <= i <= j <= |line| && line[i..j] == DoneSentinel
                           && (forall k :: |DataPrefix| <= k < i ==> IsSpace(line[k]))
                           && (forall k :: j <= k < |line| ==> IsSpace(line[k]))
  {
    PayloadTrimmed(line);
  }

  /** What one frame does to `content`: a caught `KeyError` skips the rest of
      the line; falsy `choices` leaves `content` as it was; otherwise
      `content` is rebound (`FoundEmpty`: on the chat endpoint an empty one
      is counted and reset to `""`); or an exception escapes. */
  datatype Extraction =
    | Skipped
    | NoChoices
    | Found(content: Json)
    | FoundEmpty
    | Escaped(error: PyError)

  function Abort(e: Eval): Extraction
    requires !e.Value?
  {
    if e.Caught? then Skipped else Escaped(e.error)
  }

  /** The value `content` holds after lines 51-57: `delta.content`, and when
      that is missing or `null`, `message.content` (default `""`); `delta` and
      `message` default to `{}`. */
  function SelectedContent(choice: Json): (e: Eval)
    ensures !choice.JObj? ==> e == Raise(AttributeError)
    ensures choice.JObj? && "delta" in choice.fields && !choice.fields["delta"].JObj?
            ==> e == Raise(AttributeError)
    ensures choice.JObj? && "delta" in choice.fields && choice.fields["delta"].JObj?
            && "content" in choice.fields["delta"].fields && choice.fields["delta"].fields["content"] != JNull
            ==> e == Value(choice.fields["delta"].fields["content"])
    ensures choice.JObj?
            && ("delta" in choice.fields ==>
                  (choice.fields["delta"].JObj?
                   && ("content" in choice.fields["delta"].fields ==> choice.fields["delta"].fields["content"] == JNull)))
            ==> e == (if "message" !in choice.fields then Value(JStr(""))
                      else if !choice.fields["message"].JObj? then Raise(AttributeError)
                      else if "content" in choice.fields["message"].fields
                      then Value(choice.fields["message"].fields["content"])
                      else Value(JStr("")))
  {
    var delta := Get(choice, "delta", JObj(map[]));
    if !delta.Value? then delta else
    var c := Get(delta.v, "content", JNull);
    if !c.Value? then c
    else if c.v != JNull then c
    else
      var message := Get(choice, "message", JObj(map[]));
      if !message.Value? then message else Get(message.v, "content", JStr(""))
  }

  /** The chat rule for the first choice: a truthy selected content is the
      frame's content; a falsy one is counted empty and replaced by `""`. */
  function ChatChoiceContent(choice: Json): (x: Extraction)
    ensures var e := SelectedContent(choice);
            && (e.Value? && Truthy(e.v) ==> x == Found(e.v))
            && (e.Value? && !Truthy(e.v) ==> x == FoundEmpty)
            && (!e.Value? ==> x == Escaped(e.error))
  {
    var c := SelectedContent(choice);
    if !c.Value? then Abort(c)
    else if !Truthy(c.v) then FoundEmpty
    else Found(c.v)
  }

  /** The chat branch of the decoder (lines 46-61). */
  function ChatContent(data: Json): (x: Extraction)
    ensures !data.JObj? ==> x == Escaped(AttributeError)
    ensures LacksChoices(data) ==> x == NoChoices
    ensures data.JObj? && "choices" in data.fields ==>
      var c := data.fields["choices"];
      && (c.JArr? && c.items != [] ==> x == ChatChoiceContent(c.items[0]))
      && (c.JObj? && Truthy(c) ==> x == Skipped)
      && ((c.JNum? || c.JBool?) && Truthy(c) ==> x == Escaped(TypeError))
      && (c.JStr? && Truthy(c) ==> x == Escaped(AttributeError))
  {
    var choices := Get(data, "choices", JArr([]));
    if !choices.Value? then Abort(choices)
    else if !Truthy(choices.v) then NoChoices
    else
      var choice := First(choices.v);
      if !choice.Value? then Abort(choice) else ChatChoiceContent(choice.v)
  }

  /** The completions branch (lines 62-65): `choices[0].get("text", "")`. */
  function CompletionContent(data: Json): (x: Extraction)
    ensures !x.FoundEmpty?
    ensures !data.JObj? ==> x == Escaped(AttributeError)
    ensures LacksChoices(data) ==> x == NoChoices
    ensures data.JObj? && "choices" in data.fields ==>
      var c := data.fields["choices"];
      && (c.JArr? && c.items != [] ==>
            x == if !c.items[0].JObj? then Escaped(AttributeError)
                 else if "text" in c.items[0].fields then Found(c.items[0].fields["text"])
                 else Found(JStr("")))
      && (c.JObj? && Truthy(c) ==> x == Skipped)
      && ((c.JNum? || c.JBool?) && Truthy(c) ==> x == Escaped(TypeError))
      && (c.JStr? && Truthy(c) ==> x == Escaped(AttributeError))
  {
    var choices := Get(data, "choices", JArr([]));
    if !choices.Value? then Abort(choices)
    else if !Truthy(choices.v) then NoChoices
    else
      var choice := First(choices.v);
      if !choice.Value? then Abort(choice)
      else
        var text := Get(choice.v, "text", JStr(""));
        if !text.Value? then Abort(text) else Found(text.v)
  }

  /** `if content: accumulated_text += content; chunk_count += 1`, with the
      `UnboundLocalError` of an unbound `content` and the `TypeError` of
      adding a non-string to a string. */
  function Emit(d: Decoder): (r: Fold)
    ensures d.content.None? ==> r == Fold(Raised(UnboundLocalError), d)
    ensures d.content.Some? && !Truthy(d.content.value) ==> r == Fold(Running, d)
    ensures d.content.Some? && Truthy(d.content.value) && !d.content.value.JStr? ==> r == Fold(Raised(TypeError), d)
    ensures d.content.Some? && Truthy(d.content.value) && d.content.value.JStr?
            ==> r.status == Running && r.dec.text == d.text + d.content.value.s && r.dec.chunks == d.chunks + 1
    ensures !r.status.Finished?
    ensures r.dec == d || (d.content.Some? && d.content.value.JStr? && d.content.value.s != ""
                           && r.dec == d.(text := d.text + d.content.value.s, chunks := d.chunks + 1))
  {
    match d.content
    case None => Fold(Raised(UnboundLocalError), d)
    case Some(c) =>
      if !Truthy(c) then Fold(Running, d)
      else if c.JStr? then Fold(Running, d.(text := d.text + c.s, chunks := d.chunks + 1))
      else Fold(Raised(TypeError), d)
  }

  /** The content rule: chat when the endpoint is the chat path,
      completions for any other path. */
  function Extract(chat: bool, data: Json): (x: Extraction)
    ensures x.FoundEmpty? ==> chat
  {
    if chat then ChatContent(data) else CompletionContent(data)
  }

  /** What a frame does once its content rule gave `x` (lines 46-75 after
      `json.loads`). */
  function Absorb(d: Decoder, x: Extraction): (r: Fold)
    ensures !r.status.Finished?
    ensures d.text <= r.dec.text
    ensures r.dec.chunks == if r.dec.text == d.text then d.chunks else d.chunks + 1
    ensures r.dec.lines == d.lines
    ensures r.dec.empties == d.empties || (r.dec.empties == d.empties + 1 && r.dec.text == d.text && x.FoundEmpty?)
  {
    match x
    case Skipped => Fold(Running, d)
    case Escaped(e) => Fold(Raised(e), d)
    case NoChoices => Emit(d)
    case Found(c) => Emit(d.(content := Some(c)))
    case FoundEmpty => Emit(d.(empties := d.empties + 1, content := Some(JStr(""))))
  }

  /** One iteration of the loop (lines 25-75) on a decoder that is still
      running. */
  function Step(chat: bool, parse: string -> Option<Json>, d: Decoder, line: string): (r: Fold)
    ensures d.text <= r.dec.text
    ensures r.dec.chunks == if r.dec.text == d.text then d.chunks else d.chunks + 1
    ensures r.dec.lines == if line == "" then d.lines else d.lines + 1
    ensures r.dec.empties == d.empties || (r.dec.empties == d.empties + 1 && r.dec.text == d.text)
    ensures !chat ==> r.dec.empties == d.empties
    ensures r.status.Finished? <==> IsDoneLine(line)
  {
    if line == "" then Fold(Running, d)
    else
      var d := d.(lines := d.lines + 1);
      if !IsDataLine(line) then Fold(Running, d)
      else
        var payload := Payload(line);
        assert IsDoneLine(line) <==> payload == DoneSentinel;
        if payload == DoneSentinel then Fold(Finished, d)
        else
          match parse(payload)
          case None => Fold(Running, d)
          case Some(data) => Absorb(d, Extract(chat, data))
  }

  /** The loop over `lines` from the state `f`: stops at the first line that
      leaves it not `Running`. */
  function Feed(chat: bool, parse: string -> Option<Json>, f: Fold, lines: seq<string>): (r: Fold)
    ensures !f.status.Running? ==> r == f
    ensures f.dec.text <= r.dec.text
    ensures f.dec.chunks <= r.dec.chunks
    ensures r.dec.chunks - f.dec.chunks <= |r.dec.text| - |f.dec.text|
    ensures f.dec.lines <= r.dec.lines <= f.dec.lines + |lines|
    decreases |lines|
  {
    if lines == [] || !f.status.Running? then f
    else Feed(chat, parse, Step(chat, parse, f.dec, lines[0]), lines[1..])
  }

  /** `parse_sse_stream` on a whole response: every counted chunk contributes
      at least one character. */
  function Decode(chat: bool, parse: string -> Option<Json>, lines: seq<string>): (r: Fold)
    ensures r.dec.chunks <= |r.dec.text|
    ensures r.dec.lines <= |lines|
  {
    Feed(chat, parse, Start, lines)
  }

  /** The body of the loop for a line whose payload decoded to `data`
      (lines 46-75): apply the content rule, rebind `content`, append it. */
  method AbsorbFrame(chat: bool, d: Decoder, data: Json) returns (r: Fold)
    ensures r == Absorb(d, Extract(chat, data))
  {
    var x := Extract(chat, data);
    if x.Skipped? {
      return Fold(Running, d);
    }
    if x.Escaped? {
      return Fold(Raised(x.error), d);
    }
    var empties, content := d.empties, d.content;
    if x.Found? {
      content := Some(x.content);
    } else if x.FoundEmpty? {
      empties := empties + 1;
      content := Some(JStr(""));
    }
    var e := d.(empties := empties, content := content);
    if content.None? {
      return Fold(Raised(UnboundLocalError), e);
    }
    if !Truthy(content.value) {
      return Fold(Running, e);
    }
    if !content.value.JStr? {
      return Fold(Raised(TypeError), e);
    }
    return Fold(Running, e.(text := e.text + content.value.s, chunks := e.chunks + 1));
  }

  /** One pass of the loop body (lines 26-75) on the accumulators `d`. */
  method ReadLine(chat: bool, parse: string -> Option<Json>, d: Decoder, line: string) returns (f: Fold)
    ensures f == Step(chat, parse, d, line)
  {
    if line == "" {
      BlankLineStep(chat, parse, d);
      return Fold(Running, d);
    }
    var counted := d.(lines := d.lines + 1);
    if !IsDataLine(line) {
      NonDataLineCountedOnly(chat, parse, d, line);
      return Fold(Running, counted);
    }
    var payload := Payload(line);
    if payload == DoneSentinel {
      DoneLineStep(chat, parse, d, line);
      return Fold(Finished, counted);
    }
    var parsed := parse(payload);
    if parsed.None? {
      MalformedPayloadSkipped(chat, parse, d, line);
      return Fold(Running, counted);
    }
    StepFrame(chat, parse, d, line, parsed.value);
    f := AbsorbFrame(chat, counted, parsed.value);
  }

  /** The decoder loop, with its accumulators as local variables. */
  method ParseSseStream(lines: seq<string>, endpoint: string, parse: string -> Option<Json>) returns (r: Fold)
    ensures r == Decode(endpoint == ChatPath, parse, lines)
  {
    var chat := endpoint == ChatPath;
    var text, chunks, total, empties := "", 0, 0, 0;
    var content: Option<Json> := None;
    var i := 0;
    while i < |lines|
      invariant 0 <= i <= |lines|
      invariant Feed(chat, parse, Fold(Running, Decoder(text, chunks, total, empties, content)), lines[i..])
             == Decode(chat, parse, lines)
    {
      FeedFirst(chat, parse, Decoder(text, chunks, total, empties, content), lines[i..]);
      assert lines[i..][1..] == lines[i + 1..];
      var f := ReadLine(chat, parse, Decoder(text, chunks, total, empties, content), lines[i]);
      i := i + 1;
      if !f.status.Running? {
        return f;
      }
      text, chunks, total, empties, content := f.dec.text, f.dec.chunks, f.dec.lines, f.dec.empties, f.dec.content;
    }
    return Fold(Running, Decoder(text, chunks, total, empties, content));
  }

  // ----- Properties of the decoder -----

  /** A line carrying a JSON frame counts as a line and then absorbs it. */
  lemma StepFrame(chat: bool, parse: string -> Option<Json>, d: Decoder, line: string, data: Json)
    requires IsDataLine(line) && Payload(line) != DoneSentinel && parse(Payload(line)) == Some(data)
    ensures Step(chat, parse, d, line) == Absorb(d.(lines := d.lines + 1), Extract(chat, data))
  {
  }

  /** Feeding a running decoder a non-empty stream is taking one step on its
      first line and feeding it the rest. */
  lemma FeedFirst(chat: bool, parse: string -> Option<Json>, d: Decoder, lines: seq<string>)
    requires lines != []
    ensures Feed(chat, parse, Fold(Running, d), lines)
         == Feed(chat, parse, Step(chat, parse, d, lines[0]), lines[1..])
  {
  }

  /** Decoding is one forward pass: feeding two pieces in turn is feeding
      their concatenation. */
  lemma {:induction false} FeedAppend(chat: bool, parse: string -> Option<Json>, f: Fold, a: seq<string>, b: seq<string>)
    ensures Feed(chat, parse, f, a + b) == Feed(chat, parse, Feed(chat, parse, f, a), b)
    decreases |a|
  {
    if a == [] {
      assert a + b == b;
    } else if f.status.Running? {
      assert (a + b)[1..] == a[1..] + b;
      FeedAppend(chat, parse, Step(chat, parse, f.dec, a[0]), a[1..], b);
    }
  }

  /** After the `[DONE]` line the decoder is finished with the state it had
      before that line (one more line counted), whatever follows. */
  lemma {:induction false} DoneEndsDecoding(chat: bool, parse: string -> Option<Json>, f: Fold,
                                            before: seq<string>, done: string, after: seq<string>)
    requires IsDoneLine(done)
    requires Feed(chat, parse, f, before).status.Running?
    ensures var r := Feed(chat, parse, f, before + [done] + after);
            var d := Feed(chat, parse, f, before).dec;
            r == Fold(Finished, d.(lines := d.lines + 1))
  {
    var g := Feed(chat, parse, f, before);
    FeedAppend(chat, parse, f, before, [done] + after);
    assert before + [done] + after == before + ([done] + after);
    assert ([done] + after)[1..] == after;
  }

  /** Once decoding has stopped, no later line changes anything. */
  lemma {:induction false} StoppedIgnoresRest(chat: bool, parse: string -> Option<Json>, f: Fold,
                                              before: seq<string>, after: seq<string>)
    requires !Feed(chat, parse, f, before).status.Running?
    ensures Feed(chat, parse, f, before + after) == Feed(chat, parse, f, before)
  {
    FeedAppend(chat, parse, f, before, after);
  }

  /** A blank line is invisible: removing it changes nothing, not even the
      line count. */
  lemma {:induction false} BlankLineInvisible(chat: bool, parse: string -> Option<Json>, f: Fold,
                                              before: seq<string>, after: seq<string>)
    ensures Feed(chat, parse, f, before + [""] + after) == Feed(chat, parse, f, before + after)
  {
    FeedAppend(chat, parse, f, before, [""] + after);
    FeedAppend(chat, parse, f, before, after);
    assert before + [""] + after == before + ([""] + after);
    assert ([""] + after)[1..] == after;
  }

  /** A blank line leaves a running decoder as it was. */
  lemma BlankLineStep(chat: bool, parse: string -> Option<Json>, d: Decoder)
    ensures Step(chat, parse, d, "") == Fold(Running, d)
  {
  }

  /** The sentinel line stops the loop after counting itself. */
  lemma DoneLineStep(chat: bool, parse: string -> Option<Json>, d: Decoder, line: string)
    requires IsDoneLine(line)
    ensures Step(chat, parse, d, line) == Fold(Finished, d.(lines := d.lines + 1))
  {
  }

  /** A non-blank line that is not a `data: ` line only counts as a line. */
  lemma NonDataLineCountedOnly(chat: bool, parse: string -> Option<Json>, d: Decoder, line: string)
    requires line != "" && !IsDataLine(line)
    ensures Step(chat, parse, d, line) == Fold(Running, d.(lines := d.lines + 1))
  {
  }

  /** A `data: ` line whose payload is not JSON is skipped: it only counts as
      a line, and decoding goes on. */
  lemma MalformedPayloadSkipped(chat: bool, parse: string -> Option<Json>, d: Decoder, line: string)
    requires IsDataLine(line) && Payload(line) != DoneSentinel && parse(Payload(line)) == None
    ensures Step(chat, parse, d, line) == Fold(Running, d.(lines := d.lines + 1))
  {
  }

  /** `line` is a data line whose payload parses to `data`. */
  predicate Carries(parse: string -> Option<Json>, line: string, data: Json)
  {
    IsDataLine(line) && Payload(line) != DoneSentinel && parse(Payload(line)) == Some(data)
  }

  /** `data` is an object whose `choices` list starts with the object `choice`. */
  predicate FirstChoiceIs(data: Json, choice: map<string, Json>)
  {
    && data.JObj?
    && "choices" in data.fields
    && data.fields["choices"].JArr?
    && data.fields["choices"].items != []
    && data.fields["choices"].items[0] == JObj(choice)
  }

  /** The decoder after a frame whose content is the string `s`: appended
      and counted when non-empty; on the chat endpoint an empty one is
      counted as empty instead. */
  function AfterContent(d: Decoder, s: string, chat: bool): (r: Decoder)
    ensures r.text == d.text + s
  {
    var d := d.(lines := d.lines + 1, content := Some(JStr(s)));
    if s != "" then d.(text := d.text + s, chunks := d.chunks + 1)
    else if chat then d.(empties := d.empties + 1)
    else d
  }

  /** What the content rule yields for a string content `s`. */
  function StringContent(s: string, chat: bool): Extraction
  {
    if chat && s == "" then FoundEmpty else Found(JStr(s))
  }

  lemma AbsorbString(d: Decoder, s: string, chat: bool)
    ensures Absorb(d.(lines := d.lines + 1), StringContent(s, chat)) == Fold(Running, AfterContent(d, s, chat))
  {
  }

  lemma ChoicesOf(data: Json, choice: map<string, Json>)
    requires FirstChoiceIs(data, choice)
    ensures Get(data, "choices", JArr([])) == Value(data.fields["choices"])
    ensures Truthy(data.fields["choices"])
    ensures First(data.fields["choices"]) == Value(JObj(choice))
  {
  }

  /** The chat rule takes a non-null `delta.content`. */
  lemma ChatDeltaRule(data: Json, choice: map<string, Json>, delta: map<string, Json>, s: string)
    requires FirstChoiceIs(data, choice)
    requires "delta" in choice && choice["delta"] == JObj(delta)
    requires "content" in delta && delta["content"] == JStr(s)
    ensures ChatContent(data) == StringContent(s, true)
  {
    ChoicesOf(data, choice);
  }

  /** The chat rule falls back to `message.content` when `delta.content` is
      missing or `null`. */
  lemma ChatMessageRule(data: Json, choice: map<string, Json>, message: map<string, Json>, s: string)
    requires FirstChoiceIs(data, choice)
    requires "delta" in choice ==>
      choice["delta"].JObj? && ("content" in choice["delta"].fields ==> choice["delta"].fields["content"] == JNull)
    requires "message" in choice && choice["message"] == JObj(message)
    requires "content" in message && message["content"] == JStr(s)
    ensures ChatContent(data) == StringContent(s, true)
  {
    ChoicesOf(data, choice);
  }

  /** The chat rule counts a choice with no content anywhere as empty. */
  lemma ChatNoContentRule(data: Json, choice: map<string, Json>)
    requires FirstChoiceIs(data, choice)
    requires "delta" in choice ==>
      choice["delta"].JObj? && ("content" in choice["delta"].fields ==> choice["delta"].fields["content"] == JNull)
    requires "message" in choice ==>
      choice["message"].JObj? && ("content" in choice["message"].fields ==> choice["message"].fields["content"] == JNull)
    ensures ChatContent(data) == FoundEmpty
  {
    ChoicesOf(data, choice);
  }

  /** The completions rule takes `text` (default `""`). */
  lemma CompletionTextRule(data: Json, choice: map<string, Json>, s: string)
    requires FirstChoiceIs(data, choice)
    requires if "text" in choice then choice["text"] == JStr(s) else s == ""
    ensures CompletionContent(data) == StringContent(s, false)
  {
    ChoicesOf(data, choice);
  }

  /** Chat endpoint: a non-null `delta.content` is the frame's content. */
  lemma ChatTakesDelta(parse: string -> Option<Json>, d: Decoder, line: string, data: Json,
                       choice: map<string, Json>, delta: map<string, Json>, s: string)
    requires Carries(parse, line, data) && FirstChoiceIs(data, choice)
    requires "delta" in choice && choice["delta"] == JObj(delta)
    requires "content" in delta && delta["content"] == JStr(s)
    ensures Step(true, parse, d, line) == Fold(Running, AfterContent(d, s, true))
  {
    StepFrame(true, parse, d, line, data);
    ChatDeltaRule(data, choice, delta, s);
    AbsorbString(d, s, true);
  }

  /** Chat endpoint: when `delta` has no `content` (or it is `null`), the
      frame's content is `message.content`. */
  lemma ChatFallsBackToMessage(parse: string -> Option<Json>, d: Decoder, line: string, data: Json,
                               choice: map<string, Json>, message: map<string, Json>, s: string)
    requires Carries(parse, line, data) && FirstChoiceIs(data, choice)
    requires "delta" in choice ==>
      choice["delta"].JObj? && ("content" in choice["delta"].fields ==> choice["delta"].fields["content"] == JNull)
    requires "message" in choice && choice["message"] == JObj(message)
    requires "content" in message && message["content"] == JStr(s)
    ensures Step(true, parse, d, line) == Fold(Running, AfterContent(d, s, true))
  {
    StepFrame(true, parse, d, line, data);
    ChatMessageRule(data, choice, message, s);
    AbsorbString(d, s, true);
  }

  /** Chat endpoint: a frame with neither `delta.content` nor
      `message.content` (a reasoning-only delta, say) is counted as empty and
      appends nothing. */
  lemma ChatWithoutContentCountedEmpty(parse: string -> Option<Json>, d: Decoder, line: string, data: Json,
                                       choice: map<string, Json>)
    requires Carries(parse, line, data) && FirstChoiceIs(data, choice)
    requires "delta" in choice ==>
      choice["delta"].JObj? && ("content" in choice["delta"].fields ==> choice["delta"].fields["content"] == JNull)
    requires "message" in choice ==>
      choice["message"].JObj? && ("content" in choice["message"].fields ==> choice["message"].fields["content"] == JNull)
    ensures Step(true, parse, d, line) == Fold(Running, AfterContent(d, "", true))
  {
    StepFrame(true, parse, d, line, data);
    ChatNoContentRule(data, choice);
    AbsorbString(d, "", true);
  }

  /** Completions endpoint: the frame's content is `choices[0].text`
      (default `""`); an empty one is not counted anywhere. */
  lemma CompletionTakesText(parse: string -> Option<Json>, d: Decoder, line: string, data: Json,
                            choice: map<string, Json>, s: string)
    requires Carries(parse, line, data) && FirstChoiceIs(data, choice)
    requires if "text" in choice then choice["text"] == JStr(s) else s == ""
    ensures Step(false, parse, d, line) == Fold(Running, AfterContent(d, s, false))
  {
    StepFrame(false, parse, d, line, data);
    CompletionTextRule(data, choice, s);
    AbsorbString(d, s, false);
  }

  /** A payload that is JSON but not an object has no `.get`: the
      `AttributeError` escapes the decoder. */
  lemma NonObjectPayloadEscapes(chat: bool, parse: string -> Option<Json>, d: Decoder, line: string, data: Json)
    requires Carries(parse, line, data) && !data.JObj?
    ensures Step(chat, parse, d, line).status == Raised(AttributeError)
  {
    StepFrame(chat, parse, d, line, data);
    assert Get(data, "choices", JArr([])) == Raise(AttributeError);
    assert Extract(chat, data) == Escaped(AttributeError);
  }

  /** `data` is an object whose `choices` is missing or falsy (`[]`, `null`,
      ...), such as a final usage-only chunk. */
  predicate LacksChoices(data: Json)
  {
    data.JObj? && ("choices" in data.fields ==> !Truthy(data.fields["choices"]))
  }

  /** Such a frame leaves `content` as it was, on either endpoint. */
  lemma NoChoicesExtracted(chat: bool, data: Json)
    requires LacksChoices(data)
    ensures Extract(chat, data) == NoChoices
  {
    assert !Truthy(Get(data, "choices", JArr([])).v);
  }

  /** A frame without `choices` does not rebind `content`: the previous
      frame's content is appended a second time. */
  lemma StaleContentAppendedAgain(chat: bool, parse: string -> Option<Json>, d: Decoder, line: string,
                                  data: Json, s: string)
    requires Carries(parse, line, data) && LacksChoices(data)
    requires d.content == Some(JStr(s)) && s != ""
    ensures Step(chat, parse, d, line)
         == Fold(Running, d.(lines := d.lines + 1, text := d.text + s, chunks := d.chunks + 1))
  {
    StepFrame(chat, parse, d, line, data);
    NoChoicesExtracted(chat, data);
  }

  /** While no frame has bound `content`, a frame without `choices` raises
      `UnboundLocalError`, which the decoder does not catch. */
  lemma UnboundContentEscapes(chat: bool, parse: string -> Option<Json>, d: Decoder, line: string, data: Json)
    requires Carries(parse, line, data) && LacksChoices(data)
    requires d.content == None
    ensures Step(chat, parse, d, line) == Fold(Raised(UnboundLocalError), d.(lines := d.lines + 1))
  {
    StepFrame(chat, parse, d, line, data);
    NoChoicesExtracted(chat, data);
  }

  /** In particular a response whose first line is such a frame ends in
      `UnboundLocalError`, whatever follows. */
  lemma {:induction false} FirstFrameWithoutChoicesEscapes(chat: bool, parse: string -> Option<Json>, line: string,
                                                           data: Json, after: seq<string>)
    requires Carries(parse, line, data) && LacksChoices(data)
    ensures Decode(chat, parse, [line] + after) == Fold(Raised(UnboundLocalError), Start.dec.(lines := 1))
  {
    UnboundContentEscapes(chat, parse, Start.dec, line, data);
    FeedFirst(chat, parse, Start.dec, [line]);
    StoppedIgnoresRest(chat, parse, Start, [line], after);
  }

  // ----- Whole streams of well-formed frames -----

  /** The chunk a chat server streams: `{"choices":[{"delta":{"content":s}}]}`. */
  function ChatDeltaFrame(s: string): Json
  {
    JObj(map["choices" := JArr([JObj(map["delta" := JObj(map["content" := JStr(s)])])])])
  }

  /** The chunk a completions server streams: `{"choices":[{"text":s}]}`. */
  function CompletionFrame(s: string): Json
  {
    JObj(map["choices" := JArr([JObj(map["text" := JStr(s)])])])
  }

  function Concat(parts: seq<string>): string
  {
    if parts == [] then "" else parts[0] + Concat(parts[1..])
  }

  function NonEmptyCount(parts: seq<string>): (n: nat)
    ensures n <= |parts|
  {
    if parts == [] then 0 else (if parts[0] != "" then 1 else 0) + NonEmptyCount(parts[1..])
  }

  /** One chat delta frame: its content is appended (or counted empty). */
  lemma ChatDeltaStep(parse: string -> Option<Json>, d: Decoder, line: string, s: string)
    requires Carries(parse, line, ChatDeltaFrame(s))
    ensures Step(true, parse, d, line) == Fold(Running, AfterContent(d, s, true))
  {
    ChatTakesDelta(parse, d, line, ChatDeltaFrame(s), map["delta" := JObj(map["content" := JStr(s)])],
                   map["content" := JStr(s)], s);
  }

  /** One completion frame: its text is appended when non-empty. */
  lemma CompletionFrameStep(parse: string -> Option<Json>, d: Decoder, line: string, s: string)
    requires Carries(parse, line, CompletionFrame(s))
    ensures Step(false, parse, d, line) == Fold(Running, AfterContent(d, s, false))
  {
    CompletionTakesText(parse, d, line, CompletionFrame(s), map["text" := JStr(s)], s);
  }

  /** Text appended after a frame, then the concatenation of the rest, is
      the concatenation of all. */
  lemma ConcatStep(text: string, parts: seq<string>)
    requires parts != []
    ensures text + parts[0] + Concat(parts[1..]) == text + Concat(parts)
  {
    assert Concat(parts) == parts[0] + Concat(parts[1..]);
  }

  /** A stream of chat delta frames decodes to the in-order concatenation of
      their contents, one chunk per non-empty content and one empty count per
      empty one. */
  lemma {:induction false} ChatStreamConcatenates(parse: string -> Option<Json>, d: Decoder,
                                                  lines: seq<string>, parts: seq<string>)
    requires |lines| == |parts|
    requires forall k :: 0 <= k < |lines| ==> Carries(parse, lines[k], ChatDeltaFrame(parts[k]))
    ensures var r := Feed(true, parse, Fold(Running, d), lines);
            && r.status == Running
            && r.dec.text == d.text + Concat(parts)
            && r.dec.chunks == d.chunks + NonEmptyCount(parts)
            && r.dec.empties == d.empties + (|parts| - NonEmptyCount(parts))
            && r.dec.lines == d.lines + |lines|
    decreases |lines|
  {
    if lines != [] {
      ChatDeltaStep(parse, d, lines[0], parts[0]);
      FeedFirst(true, parse, d, lines);
      ChatStreamConcatenates(parse, AfterContent(d, parts[0], true), lines[1..], parts[1..]);
      ConcatStep(d.text, parts);
    }
  }

  /** A stream of completion frames decodes to the in-order concatenation of
      their texts, one chunk per non-empty text; nothing is counted empty. */
  lemma {:induction false} CompletionStreamConcatenates(parse: string -> Option<Json>, d: Decoder,
                                                        lines: seq<string>, parts: seq<string>)
    requires |lines| == |parts|
    requires forall k :: 0 <= k < |lines| ==> Carries(parse, lines[k], CompletionFrame(parts[k]))
    ensures var r := Feed(false, parse, Fold(Running, d), lines);
            && r.status == Running
            && r.dec.text == d.text + Concat(parts)
            && r.dec.chunks == d.chunks + NonEmptyCount(parts)
            && r.dec.empties == d.empties
            && r.dec.lines == d.lines + |lines|
    decreases |lines|
  {
    if lines != [] {
      CompletionFrameStep(parse, d, lines[0], parts[0]);
      FeedFirst(false, parse, d, lines);
      CompletionStreamConcatenates(parse, AfterContent(d, parts[0], false), lines[1..], parts[1..]);
      ConcatStep(d.text, parts);
    }
  }

  /** `"data: " + p` is a data line whose payload is `p` when `p` has no
      surrounding whitespace. */
  lemma DataLineOf(p: string)
    requires p != [] && !IsSpace(p[0]) && !IsSpace(p[|p| - 1])
    ensures IsDataLine(DataPrefix + p) && Payload(DataPrefix + p) == p
  {
    assert (DataPrefix + p)[|DataPrefix|..] == p;
    StripTrimmed(p);
  }

  /** The sentinel line `data: [DONE]` ends decoding. */
  lemma DoneLineRecognised()
    ensures IsDoneLine(DataPrefix + DoneSentinel)
  {
    DataLineOf(DoneSentinel);
  }

  /** "Hel" and "lo" join to "Hello", and neither is empty. */
  lemma HelloParts()
    ensures Concat(["Hel", "lo"]) == "Hello" && NonEmptyCount(["Hel", "lo"]) == 2
  {
    var parts := ["Hel", "lo"];
    assert Concat(parts) == "Hel" + Concat(["lo"]);
    assert Concat(["lo"]) == "lo" + Concat([]);
    assert NonEmptyCount(parts) == 1 + NonEmptyCount(["lo"]);
    assert NonEmptyCount(["lo"]) == 1 + NonEmptyCount([]);
  }

  /** The two chat frames carrying "Hel" and "lo" leave the loop running
      with "Hello" in two chunks. */
  lemma HelloFrames(parse: string -> Option<Json>, l1: string, l2: string)
    requires Carries(parse, l1, ChatDeltaFrame("Hel")) && Carries(parse, l2, ChatDeltaFrame("lo"))
    ensures var g := Feed(true, parse, Start, [l1, l2]);
            g.status == Running && g.dec.text == "Hello" && g.dec.chunks == 2 && g.dec.lines == 2 && g.dec.empties == 0
  {
    var parts := ["Hel", "lo"];
    HelloParts();
    var frames := [l1, l2];
    forall k | 0 <= k < |frames|
      ensures Carries(parse, frames[k], ChatDeltaFrame(parts[k]))
    {
      if k == 0 { assert frames[k] == l1 && parts[k] == "Hel"; }
      else { assert frames[k] == l2 && parts[k] == "lo"; }
    }
    ChatStreamConcatenates(parse, Start.dec, frames, parts);
  }

  /** Two chat frames carrying "Hel" and "lo", then the sentinel, decode to
      "Hello" in two chunks. */
  lemma HelloExample(parse: string -> Option<Json>, l1: string, l2: string, l3: string)
    requires Carries(parse, l1, ChatDeltaFrame("Hel")) && Carries(parse, l2, ChatDeltaFrame("lo"))
    requires IsDoneLine(l3)
    ensures var r := Decode(true, parse, [l1, l2, l3]);
            r.status == Finished && r.dec.text == "Hello" && r.dec.chunks == 2 && r.dec.lines == 3 && r.dec.empties == 0
  {
    var frames := [l1, l2];
    assert frames + [l3] + [] == [l1, l2, l3];
    HelloFrames(parse, l1, l2);
    DoneEndsDecoding(true, parse, Start, frames, l3, []);
  }

  /** One completion frame carrying "Hi", then the sentinel, decode to "Hi". */
  lemma CompletionExample(parse: string -> Option<Json>, l1: string, l2: string)
    requires Carries(parse, l1, CompletionFrame("Hi")) && IsDoneLine(l2)
    ensures var r := Decode(false, parse, [l1, l2]);
            r.status == Finished && r.dec.text == "Hi" && r.dec.chunks == 1 && r.dec.lines == 2
  {
    var frames := [l1];
    assert frames + [l2] + [] == [l1, l2];
    assert Concat(["Hi"]) == "Hi" + Concat([]);
    CompletionStreamConcatenates(parse, Start.dec, frames, ["Hi"]);
    DoneEndsDecoding(false, parse, Start, frames, l2, []);
  }
}

=== FILE: text.dfy ===
/** The string operations the harness applies: `str.strip()`, the decimal
    rendering of an integer in an f-string, and `str.replace("\n", " ")`. */
module Text {

  /** `str.isspace()` for one character: the characters Python strips by
      default (the ASCII controls 9-13 and 28-31, the space, and the Unicode
      separators). */
  predicate IsSpace(c: char)
  {
    || '\t' <= c <= '\r'
    || '\U{1C}' <= c <= ' '
    || c == '\U{85}' || c == '\U{A0}' || c == '\U{1680}'
    || '\U{2000}' <= c <= '\U{200A}'
    || c == '\U{2028}' || c == '\U{2029}' || c == '\U{202F}'
    || c == '\U{205F}' || c == '\U{3000}'
  }

  /** The usual separators are whitespace; digits, letters and brackets
      are not, and nothing above U+3000 is. */
  lemma IsSpaceCommon(c: char)
    ensures c == ' ' || c == '\t' || c == '\n' || c == '\r' ==> IsSpace(c)
    ensures '0' <= c <= '9' || 'a' <= c <= 'z' || 'A' <= c <= 'Z' || c == '[' || c == ']' ==> !IsSpace(c)
    ensures IsSpace(c) ==> c <= '\U{3000}'
  {
  }

  /** `s.lstrip()`: drops the longest whitespace prefix. */
  function LStrip(s: string): (r: string)
    ensures |r| <= |s| && r == s[|s| - |r|..]
    ensures forall k :: 0 <= k < |s| - |r| ==> IsSpace(s[k])
    ensures r == [] || !IsSpace(r[0])
  {
    if s != [] && IsSpace(s[0]) then LStrip(s[1..]) else s
  }

  /** `s.rstrip()`: drops the longest whitespace suffix. */
  function RStrip(s: string): (r: string)
    ensures |r| <= |s| && r == s[..|r|]
    ensures forall k :: |r| <= k < |s| ==> IsSpace(s[k])
    ensures r == [] || !IsSpace(r[|r| - 1])
  {
    if s != [] && IsSpace(s[|s| - 1]) then RStrip(s[..|s| - 1]) else s
  }

  /** `s.strip()`: the text between the leading and trailing whitespace. */
  function Strip(s: string): (r: string)
    ensures |r| <= |s|
    ensures r == [] || (!IsSpace(r[0]) && !IsSpace(r[|r| - 1]))
    ensures exists i, j :: 0 <= i <= j <= |s| && r == s[i..j]
                           && (forall k :: 0 <= k < i ==> IsSpace(s[k]))
                           && (forall k :: j <= k < |s| ==> IsSpace(s[k]))
  {
    var l := LStrip(s);
    var r := RStrip(l);
    SuffixPrefixSlice(s, l, r);
    assert r == s[|s| - |l|..|s| - |l| + |r|];
    r
  }

  /** Where `Strip` cuts: the bounds of the slice it keeps. */
  lemma StripBounds(s: string) returns (i: nat, j: nat)
    ensures i <= j <= |s| && Strip(s) == s[i..j]
    ensures forall k :: 0 <= k < i ==> IsSpace(s[k])
    ensures forall k :: j <= k < |s| ==> IsSpace(s[k])
  {
    var l := LStrip(s);
    var r := RStrip(l);
    assert Strip(s) == r;
    SuffixPrefixSlice(s, l, r);
    i := |s| - |l|;
    j := i + |r|;
  }

  /** A prefix `r` of a suffix `l` of `s` is a slice of `s`; whitespace cut
      from the end of `l` is whitespace at the end of `s`. */
  lemma SuffixPrefixSlice(s: string, l: string, r: string)
    requires |l| <= |s| && l == s[|s| - |l|..]
    requires |r| <= |l| && r == l[..|r|]
    requires forall k :: |r| <= k < |l| ==> IsSpace(l[k])
    ensures r == s[|s| - |l|..|s| - |l| + |r|]
    ensures forall k :: |s| - |l| + |r| <= k < |s| ==> IsSpace(s[k])
  {
    var i := |s| - |l|;
    assert forall k :: i <= k < |s| ==> s[k] == l[k - i];
  }

  /** Stripping leaves a string alone whose ends are not whitespace. */
  lemma StripTrimmed(s: string)
    requires s != [] && !IsSpace(s[0]) && !IsSpace(s[|s| - 1])
    ensures Strip(s) == s
  {
  }

  /** Stripping twice strips no more than stripping once. */
  lemma {:induction false} StripIdempotent(s: string)
    ensures Strip(Strip(s)) == Strip(s)
  {
    var r := Strip(s);
    if r != [] {
      StripTrimmed(r);
    }
  }

  function DigitChar(d: nat): (c: char)
    requires d < 10
    ensures '0' <= c <= '9' && (c - '0') as nat == d
  {
    "0123456789"[d]
  }

  predicate AllDigits(s: string)
  {
    forall k :: 0 <= k < |s| ==> '0' <= s[k] <= '9'
  }

  /** `f"{n}"` for a non-negative integer: its decimal digits, most
      significant first, without leading zeros. */
  function DecimalDigits(n: nat): (r: string)
    ensures r != [] && AllDigits(r)
    ensures r[0] == '0' ==> n == 0
    ensures n < 10 <==> |r| == 1
  {
    if n < 10 then [DigitChar(n)] else DecimalDigits(n / 10) + [DigitChar(n % 10)]
  }

  /** The number a string of decimal digits denotes. */
  function DecimalValue(s: string): nat
    requires AllDigits(s)
  {
    if s == [] then 0 else 10 * DecimalValue(s[..|s| - 1]) + (s[|s| - 1] - '0') as nat
  }

  /** Rendering a status code in decimal loses nothing: reading the digits
      back gives the code. */
  lemma {:induction false} DecimalRoundTrip(n: nat)
    ensures DecimalValue(DecimalDigits(n)) == n
  {
    var r := DecimalDigits(n);
    if n >= 10 {
      DecimalRoundTrip(n / 10);
      assert r[..|r| - 1] == DecimalDigits(n / 10);
    }
  }

  /** Distinct codes render differently. */
  lemma DecimalDigitsInjective(m: nat, n: nat)
    requires DecimalDigits(m) == DecimalDigits(n)
    ensures m == n
  {
    DecimalRoundTrip(m);
    DecimalRoundTrip(n);
  }

  /** `s.replace("\n", " ")`: every newline becomes a space, nothing else moves. */
  function ReplaceNewlines(s: string): (r: string)
    ensures |r| == |s|
    ensures forall k :: 0 <= k < |s| ==> r[k] == (if s[k] == '\n' then ' ' else s[k])
  {
    if s == [] then [] else [if s[0] == '\n' then ' ' else s[0]] + ReplaceNewlines(s[1..])
  }
}
